=== FILE: README.md ===
# Basket Analytics (SG Arese) in Dafny

A model of `app.py`, the single-file Streamlit app that keeps a dataset of
per-player game statistics for the SG Arese U15 team. The model covers the
data path of the app. The UI, plotting and file I/O are left out.

- **Ingest** (`ingest.dfy`, app.py:84-115). One uploaded HoopStats export
  arrives as its lines. The model finds the team's block, from the
  `HOME:  SG Arese U15` or `VISITORS:  SG Arese U15` line to the first
  `Team Events` line. It reads the header and the ragged data lines into
  rows, truncating long lines to the header width. Each row is tagged with the
  match (the export's second line) and the date (the first field of its third
  line). `Custom 2` is dropped and `Steps` is renamed `Travelling`. The ten
  counters are coerced to numbers, with anything unreadable becoming 0, and
  `Contribution` is computed as seven positive counters minus three negative
  ones. The rows are then appended to the stored dataset.
- **Views** (`view.dfy`, app.py:20-54 and 128-146). The sidebar selection
  filters the stored rows. The "Tutte" and "Tutti" entries switch their
  filter off. The filtered rows feed two views:
  - the scatter chart: times are converted to seconds, rows are optionally
    grouped and summed per player, and points with zero time are dropped;
  - the table: the date, match and number columns are hidden, times are shown
    as `m:ss` with `"00:00"` for an unreadable one, and `Eff` is moved next to
    `+/-` by the reorder of line 145, which only lands it right after `+/-`
    when it already came after it (see Findings).
- **Support modules**:
  - `frame.dfy` is the small part of a pandas DataFrame the app uses: ordered
    columns, rows as maps, drop, rename and concat.
  - `text.dfy` holds the string functions: split and join, decimal integers,
    and `m:ss` clocks.
  - `seqs.dfy` holds the sequence functions: first match, index, pop and
    insert, and filtering.
  - `results.dfy` holds `Option` and `Result`.

The pandas and Python exceptions the modelled operations raise are a
`Failure` carrying an `Error`:
- a missing end marker;
- a block without a header line;
- data lines that never reach the header's width;
- a missing column;
- a time that does not parse.

On the page (`View.Render`) the chart function catches two of them itself
and shows a message in place of the chart: a missing `Time` column and a
time that does not convert. Every other one ends the script, and the page
is then a `Failure`: a dataset without a `Match` or `Player Name` column
(lines 122-123), a column the grouping, the median or the labels need
(lines 34, 54, 70), and any table error (lines 140-145).

Two behaviours of the code are easy to miss, and the model keeps both:
- The table view fails when the filtered rows have no `Time` column. Line 141
  reads that column unconditionally.
- The aggregation decision of line 136 counts the selected match entries
  including "Tutte" itself. So "Tutte" plus one match aggregates.

## Model

| member | source | states |
|---|---|---|
| Text.FirstField | app.py:100 | The date is the longest comma-free prefix of the third line: it is a prefix, holds no comma, and is followed by a comma or the end of the line. |
| Text.Split | app.py:93-94 | `str.split` always yields at least one field, and no field contains the separator. |
| Text.JoinSplit | app.py:93-94 | Splitting a line on commas loses nothing: joining the fields with commas gives the line back. |
| Text.SplitJoin | app.py:93-94 | Splitting comma-joined comma-free fields gives exactly those fields back. |
| Text.ParseInt | app.py:108 | `to_numeric` reads a number exactly when the text is an optional sign followed by digits; plain digits read as their decimal value, a leading `-` negates it and a leading `+` keeps it. |
| Text.ParseIntRoundTrip | app.py:108 | A number written back as decimal text is read back as the same number. |
| Text.Pad2 | app.py:141 | The `:02d` seconds field is exactly two digits denoting the number. |
| Text.RenderClock | app.py:66 | The `m:ss` text: minutes without leading zeros, a colon, then two digits for the seconds, with minutes equal to the seconds divided by 60 and the two digits to the remainder. |
| Text.ParseClock | app.py:141 | A text reads as a clock exactly when it is minute digits, a colon and two second digits below 60; its value divided by 60 is the minutes and the remainder the seconds. |
| Text.ClockRoundTrip | app.py:66 | Reading a rendered clock back gives the same number of seconds. |
| Text.RenderIsNotPlaceholder | app.py:141 | A real time never renders as the `"00:00"` placeholder (zero renders as `0:00`). |
| Seqs.FindFirst | app.py:87-89 | `next(...)` over a range: the index returned is the first one at or after the start whose element satisfies the test; none means no element from the start on does. |
| Seqs.IndexOf | app.py:145 | `list.index`: the first occurrence, and absence exactly when the value is not in the list. |
| Seqs.RemoveAt | app.py:145 | `list.pop(i)` keeps the elements before `i` and shifts the ones after it down by one. |
| Seqs.InsertAt | app.py:145 | `list.insert` puts the value at the index, or at the end when the index is past it, and removing it gives the list back. |
| Seqs.MoveKeepsElements | app.py:145 | Popping a column and inserting it elsewhere keeps the same columns with the same multiplicities. |
| Seqs.Filter | app.py:131-133 | A boolean-mask selection keeps only elements that pass, every element that passes, nothing foreign, and no more than it was given. |
| Seqs.FilterIsSubsequence | app.py:131-133 | The selection keeps the original order: it is the subsequence at strictly increasing positions, and a position is kept exactly when its element passes. |
| Seqs.FilterAppend | app.py:114 | Filtering a dataset with appended rows equals filtering the old rows followed by filtering the new ones. |
| Frame.AddColumn | app.py:99-100 | Assigning a column adds its name at the end if it is new and keeps the column list otherwise. |
| Frame.UnionColumns | app.py:114 | `concat` keeps the first frame's columns in order, then adds the second frame's columns the first lacks, each once, in the order they first appear in the second frame. |
| Frame.Concat | app.py:114 | `concat` puts the new rows after the stored ones. Its columns are the stored ones in order, then the new frame's other columns, each once, in order of first appearance. |
| Frame.FirstMissing | app.py:107-108 | The first listed name that is not a column: every name before it is a column, and there is none exactly when all are columns. |
| Frame.DropColumns | app.py:103 | `drop` fails exactly when a listed name is not a column; otherwise the listed columns disappear from the header, the other columns keep their order, and every row loses exactly the listed cells and keeps the others unchanged. |
| Frame.RenameColumn | app.py:104 | `rename` relabels the column in place, so the new columns are the old ones with `from` replaced by `to`; it moves each row's cell to the new name, leaves other cells alone and ignores an absent name. |
| Ingest.StartIsNotEnd | app.py:87-89 | A start line can never be the end line, so the block is at least one line long. |
| Ingest.LocateBlock | app.py:87-90 | No start line means nothing to ingest. Otherwise the block runs from the first start line to the first `Team Events` line after it, and fails exactly when no such line follows. |
| Ingest.Truncate | app.py:95 | A row longer than the header is cut to the header's width; a shorter one is left as it is. |
| Ingest.Widest | app.py:96 | The widest row bounds every row and is attained by one of them. |
| Ingest.ZipRow | app.py:96 | A row has a cell exactly for the header positions its fields reach, holding that field (the first field for a repeated name). |
| Ingest.NormalizeLines | app.py:94-95 | Each data line becomes a prefix of its comma-separated fields that is no wider than the header: either exactly the header's width, or all of the line's fields. |
| Ingest.ShortOfHeader | app.py:95-96 | After truncation the rows miss the header width exactly when every line has fewer fields than the header. |
| Ingest.ReadBlock | app.py:93-96 | The header is the block's second line. Reading fails without one, or when there are data lines and none reaches the header's width. Otherwise there is one row per data line, zipped with the header. |
| Ingest.ReadLines | app.py:94-96 | The data lines become one row each, cut to the header's width and zipped with it; the constructor's width error comes exactly when there are lines and none reaches the header's width. |
| Ingest.Tag | app.py:99-100 | Every row gets the match and the date, the header keeps its order and gains, at its end, those of `Match` and `Date` it lacked, in that order, and no other cell changes. |
| Ingest.Clean | app.py:103-104 | Fails exactly without a `Custom 2` column. Otherwise the columns are the old ones in their order, with every `Custom 2` removed and `Steps` renamed `Travelling` in place; each row's `Steps` cell is under `Travelling`, a row without one keeps its `Travelling` cell, and every other cell is unchanged. |
| Ingest.Coerce | app.py:108 | `to_numeric(errors='coerce').fillna(0)` on one cell: a missing cell is 0, a number stays, digits read as their decimal value, a sign followed by digits as the signed value, and any other text is 0. |
| Ingest.CoerceCounters | app.py:108 | Every listed counter holds its coerced number and the other cells are unchanged. |
| Ingest.CountersAreDistinct | app.py:107 | There are ten counters, and none of them is a column the pipeline adds or drops. |
| Ingest.ContributionFormula | app.py:109-111 | `Contribution` is Points + Assists + Block + Deflection + Steal + Def Reb + Off Reb - Fouls - Travelling - T-over. |
| Ingest.DeriveRow | app.py:108-111 | The ten counters become numbers, `Contribution` is the formula over them and survives re-reading the coerced row, and nothing else changes. |
| Ingest.DeriveRowIdempotent | app.py:108-111 | Coercing and computing `Contribution` a second time changes nothing. |
| Ingest.CoerceKeepsNumbers | app.py:108 | A number, or a number saved as decimal text, coerces to itself. |
| Ingest.Derive | app.py:107-111 | Fails exactly when a counter is not a column. Otherwise every row is derived and `Contribution` is appended to the columns unless it is already one. |
| Ingest.TaggedRowsAreIngested | app.py:99-111 | After tagging, cleaning and deriving, every row carries its match and date, has no `Custom 2` or `Steps`, and has numeric counters and their `Contribution`. |
| Ingest.IngestibleColumns | app.py:103-108 | Cleaning fails exactly without `Custom 2`, and deriving the cleaned table fails exactly when a counter is neither in the header nor, for `Travelling`, present as `Steps`. |
| Ingest.TaggedRowsFromLines | app.py:99-111 | After tagging, cleaning and deriving, each counter of a row holds its coerced field (`Travelling` the `Steps` field when present) and every cell the pipeline does not write is the row's own field. |
| Ingest.NewRows | app.py:87-111 | An export without a block yields nothing. Otherwise it fails exactly when the end marker is missing, the block cannot be read, or the header lacks `Custom 2` or a counter (`Travelling` may be `Steps`); a block yields one ingested row per line after the header, tagged with the export's match and date. Its columns are the header in order, cleaned as by `Ingest.Clean`, followed by those of `Match`, `Date` and `Contribution` the header lacked, in that order. |
| Ingest.NewRowsKeepLines | app.py:93-111 | Each new row keeps the fields of its export line: the line split on commas, cut to the header's width and zipped with the header, with the counters coerced. |
| Ingest.Ingest | app.py:87-114 | Without a block the store is unchanged. The upload fails exactly when `NewRows` fails. Otherwise the new rows follow the stored ones, which keep their place and columns, and the store is the stored table concatenated with the export's new table. |
| Ingest.IngestedColumns | app.py:99-111 | Tagging, cleaning and deriving a read block leaves exactly the header's columns without `Custom 2` and `Steps`, plus `Travelling` when there was a `Steps`, plus `Match`, `Date` and `Contribution`. |
| Ingest.IngestColumns | app.py:99-114 | After an upload with a block, the store's columns are the stored ones in order, then the export's new columns the store lacked, once each, in the export's order. |
| Ingest.IngestedOrder | app.py:99-111 | Tagging, cleaning and deriving turn the header into the cleaned header followed by the added `Match`, `Date` and `Contribution` it lacked. |
| Ingest.IngestIntoEmpty | app.py:114 | The first upload into the empty store of line 17 gives exactly the export's new rows and columns. |
| Ingest.IngestRowCount | app.py:90-114 | The store grows by the number of block lines after the header. |
| Ingest.IngestTwice | app.py:114 | Uploading the same export twice appends its rows twice; nothing is de-duplicated. |
| View.FilterRows | app.py:129-133 | Only rows of selected matches and players are kept unless the "all" entry is selected, every row the selection admits is kept, and with both "all" entries the dataset is unchanged. |
| View.FilterRowsIsSubsequence | app.py:129-133 | The filtered rows are the stored rows at increasing positions, and a position is kept exactly when the selection admits its row. |
| View.SentinelsOverride | app.py:130-133 | With "Tutte" or "Tutti" selected, the other entries of that multiselect have no effect. |
| View.KeepSelectsByCells | app.py:130-133 | A row with match m and player p is kept exactly when each multiselect holds its "all" entry or the row's own entry. |
| View.AllMatchesCounts | app.py:136 | "Tutte" counts as a selected match: with any one match it aggregates, while one other match alone without "Tutti" does not. |
| View.UnaggregatedViewIsNarrow | app.py:136 | When the chart is not aggregated, the filtered rows are all from one match or all of selected players. |
| View.SecondsOf | app.py:27 | A missing or empty time stays missing, an `m:ss` text becomes its seconds, and anything else is a conversion error. |
| View.SecondsOfRendered | app.py:27 | A time in the chart's own `m:ss` format converts back to the same seconds. |
| View.ToPoints | app.py:27 | The conversion fails exactly when some row's time does not convert; otherwise there is one point per row with its player, `Contribution` and seconds. |
| View.Players | app.py:34 | The group keys: each named player once, and exactly the players that occur. |
| View.GroupedAppend | app.py:34-47 | One more point for a new player adds a group at the end, for a known player adds into that player's group, and without a player changes nothing. |
| View.Aggregate | app.py:34-47 | The one-pass grouping equals the reference grouping: one point per player with the summed contribution and seconds. |
| View.GroupedIsPerPlayer | app.py:34-47 | Each player appears in exactly one group, that group holds the sums over all that player's points, and every named point has its group. |
| View.DropIdle | app.py:50 | The zero-time points are dropped and every other point is kept; a missing time is not zero. |
| View.DropIdleKeepsPlayersDistinct | app.py:50 | Dropping points cannot make two remaining points share a player. |
| View.ChartData | app.py:20-54 | The chart fails exactly without `Time`, on an unreadable time, or on a column missing after the conversion: an aggregated column, `Contribution`, or `Player Name` with a point to label. Only the first two are errors the chart reports itself. Otherwise it shows no zero-time point, and when aggregated exactly the grouped points minus the zero-time ones, one per player. |
| View.DisplayTime | app.py:141 | The table shows `"00:00"` exactly for a missing or unreadable time; any other time is shown as the clock rendering of its seconds: minutes without a leading zero, a colon and two digits of seconds. |
| View.ReorderAsWritten | app.py:144-145 | The reorder as written keeps the same columns and fails without `+/-` or `Eff`. When `Eff` comes after `+/-` it ends up right after `+/-`. When it comes before, `+/-` moves one place left, the column that followed `+/-` sits between them, and `Eff` lands right after that column (last when `+/-` was last); taking `Eff` out again leaves every other column in its original order. |
| View.ReorderAsWrittenMisplacesEff | app.py:145 | With the columns `Eff, +/-, X`, the code as written yields `+/-, X, Eff`, so `Eff` is not next to `+/-`. |
| View.ReorderColumns | app.py:144-146 | The intended reorder keeps the same columns, fails without `+/-` or `Eff`, and always puts `Eff` immediately after `+/-`, the other columns keeping their order. |
| View.ReorderAgreesWhenEffFollows | app.py:145 | When `Eff` already comes after `+/-`, the code as written and the intended reorder agree. |
| View.ShowTimes | app.py:141 | Every row's time is replaced by its display text and no other cell changes. |
| View.ShownTable | app.py:140-141 | Fails exactly when a hidden column or `Time` is missing. Otherwise the columns are the non-hidden ones in their order, every row appears without the hidden cells, its time is the display text and its other cells are unchanged. |
| View.TableView | app.py:140-146 | The table as written fails exactly when one of `Date`, `Match`, `No.`, `Time`, `+/-` and `Eff` is missing. Otherwise it has the shown rows, exactly the visible columns with the same multiplicities, and they are exactly the as-written reordering of the visible columns, with `Eff` right after `+/-` when it already came after it. |
| View.IntendedTableView | app.py:140-146 | The table as intended fails on the same tables, has the same rows, and its columns are exactly the intended reordering of the visible columns, with `Eff` always right after `+/-`. |
| View.TableViewsAgree | app.py:145 | The two tables fail on the same inputs and are equal whenever `Eff` already comes after `+/-` among the visible columns. |
| View.Render | app.py:128-146 | An empty dataset shows the message. Otherwise a missing `Match` or `Player Name` column ends the script, and so does exactly a chart error the chart does not catch or a table error. A shown page has the table of the filtered rows. Its chart is a caught error exactly when a filtered time cannot be read; otherwise it is the filtered rows' points, summed per player when aggregating, without those of zero time. |

## Left out

- The Streamlit UI (page setup, uploader, multiselects, messages and tables) and the matplotlib chart are not modelled. The chart is the list of points it would plot.
- The medians of lines 53-54 and the reference lines drawn at them are not modelled.
- Reading and writing `players_data.csv` (lines 14-17 and 115) is left out; the store is a `Table` passed in and returned. CSV quoting and the re-typing of columns on reload are not modelled either.
- Decoding the upload and `splitlines` (line 84) are left out; the export arrives as its lines.
- The sidebar option lists of lines 122-123 are left out; a selection is any two lists of entries. Only the `KeyError` those lines raise without a `Match` or `Player Name` column is modelled, in `View.Render`.
- `View.ChartData` mutates nothing. In the source, line 27 writes the converted times, as float seconds, back into the filtered frame that the table later reads (a pandas aliasing effect). After a chart conversion that succeeds, line 141 reads those seconds as nanoseconds, so the user sees `0:00` for every played time; a missing time still shows `00:00`. The model's table starts from the filtered rows, so it shows the clock of the export's time instead.
- View.Render: the page's table shows each played time as the export's clock. In the source, once the chart has converted the times (line 27), the table of line 141 shows `0:00` for every played time and `00:00` for a missing one.
- View.SecondsOf: assumes the export's `Time` text is minutes and seconds (`m:ss`), the format the chart's axis (line 66) and the table (line 141) print. `pd.to_timedelta` itself reads clock text as `hh:mm:ss` and rejects two-field `a:b` text; that grammar (hours, days, unit strings) is not modelled. An empty text is missing, as pandas reads it, and a numeric cell counts as unreadable.
- View.DisplayTime: makes the same `m:ss` assumption for line 141, where `errors='coerce'` turns any text pandas cannot read into the `"00:00"` placeholder.
- Text.ParseInt: reads only an optional sign followed by decimal digits. Floats, exponents and surrounding spaces, which `pd.to_numeric` also accepts, are not modelled, and counters are integers.
- View.Aggregate: groups in order of first appearance, while `groupby` sorts by player name. The chart does not depend on the order. Only `Contribution` and seconds are kept per group; the other summed counters are not plotted.
- Ingest.Clean: for a header with both `Steps` and `Travelling`, pandas' rename leaves two `Travelling` columns. The model's column list has both, as pandas' does, but each row holds one `Travelling` cell, the `Steps` one.
- Ingest.ZipRow: for a header that repeats a name, the model keeps the first field. pandas would keep a duplicated column.
- View.FilterRows: a missing or numeric `Match` or `Player Name` cell matches no selected entry. This is how `isin` treats NaN.
- View.FilterRows: on its own, a dataset without a `Match` or `Player Name` column filters to no rows. The source raises before filtering (lines 122-123); `View.Render`, the only caller, models that `KeyError`.
- View.ChartData: checks the aggregated columns before grouping and `Contribution` after dropping idle points. Which `KeyError` the source raises first depends on pandas internals; the model only promises that a missing column is an error.

## Findings

| source | as written | input that shows it | evidently intended | confidence | as-written member | corrected member |
|---|---|---|---|---|---|---|
| app.py:145 | The insertion index `index('+/-') + 1` is computed before `Eff` is popped. When `Eff` comes before `+/-`, every later column shifts left and `Eff` lands one place too far. | columns `Eff, +/-, X` give `+/-, X, Eff` | `Eff` immediately after `+/-` wherever it started | medium, not executed | `View.ReorderAsWritten`, used by `View.TableView` and `View.Render`, with counterexample `View.ReorderAsWrittenMisplacesEff` | `View.ReorderColumns`, used by `View.IntendedTableView`; `View.TableViewsAgree` shows where the two tables coincide |

=== FILE: frame.dfy ===
/** The tabular data the pipeline passes around, in place of a pandas
    DataFrame: an ordered list of column names and one map per row. A row
    holds no entry for a cell pandas would fill with a missing value, so
    short rows and columns added by a later ingest are simply absent. */
module Frame {
  import opened Results
  import opened Seqs

  /** A cell is text as read from the export, or a number after coercion. */
  datatype Cell = Text(text: string) | Num(value: int)

  type Row = map<string, Cell>

  datatype Table = Table(columns: seq<string>, rows: seq<Row>)

  /** The failures the pipeline reports instead of raising. */
  datatype Error =
    | MissingEndMarker                        // `next` raises StopIteration
    | MissingHeader                           // the block has no header line
    | WidthMismatch(header: nat, widest: nat) // the DataFrame constructor rejects the rows
    | MissingColumn(name: string)             // a KeyError or ValueError on a column name
    | UnparseableTime(text: string)           // `pd.to_timedelta` raises

  /** The store before anything has been saved: `pd.DataFrame()`. */
  const Empty: Table := Table([], [])

  /** The cell of `row` in `column`, if it has one. */
  function Get(row: Row, column: string): Option<Cell> {
    if column in row then Some(row[column]) else None
  }

  /** Rows with the same cell in every column are the same row. */
  lemma SameCells(a: Row, b: Row)
    requires forall c :: Get(a, c) == Get(b, c)
    ensures a == b
  {
    forall c | c in a
      ensures c in b && a[c] == b[c]
    {
      assert Get(a, c) == Get(b, c);
    }
    forall c | c in b
      ensures c in a
    {
      assert Get(a, c) == Get(b, c);
    }
  }

  /** `df[name] = ...` on the column list: a new name goes last, an existing
      one keeps its place. */
  function AddColumn(columns: seq<string>, name: string): (r: seq<string>)
    ensures name in r
    ensures columns <= r
    ensures forall c :: c in r <==> c in columns || c == name
    ensures name in columns ==> r == columns
  {
    if name in columns then columns else columns + [name]
  }

  /** `r` is `a` followed by the names of `b` that `a` lacks, each once and
      in the order of their first appearance in `b`. */
  ghost predicate UnionInOrder(a: seq<string>, b: seq<string>, r: seq<string>) {
    && a <= r
    && (forall c :: c in r <==> c in a || c in b)
    && (forall k :: |a| <= k < |r| ==> r[k] in b && r[k] !in r[..k])
    && (forall k, l, j :: |a| <= k < l < |r| && 0 <= j < |b| && b[j] == r[l] ==> r[k] in b[..j])
  }

  /** The columns of `pd.concat([a, b])`: those of `a`, then those of `b`
      not already present, in order of appearance. */
  function UnionColumns(a: seq<string>, b: seq<string>): (r: seq<string>)
    ensures a <= r
    ensures forall c :: c in r <==> c in a || c in b
    ensures forall k :: |a| <= k < |r| ==> r[k] in b && r[k] !in r[..k]
    ensures forall k, l, j :: |a| <= k < l < |r| && 0 <= j < |b| && b[j] == r[l] ==> r[k] in b[..j]
    decreases |b|
  {
    if |b| == 0 then a
    else
      var r := UnionColumns(AddColumn(a, b[0]), b[1..]);
      UnionStep(a, b, r);
      r
  }

  /** One step of `UnionColumns`: what holds of the union of `a` plus `b[0]`
      with the rest of `b` holds of the union of `a` with `b`. */
  lemma UnionStep(a: seq<string>, b: seq<string>, r: seq<string>)
    requires |b| > 0
    requires AddColumn(a, b[0]) <= r
    requires forall k :: |AddColumn(a, b[0])| <= k < |r| ==> r[k] in b[1..] && r[k] !in r[..k]
    requires forall k, l, j :: |AddColumn(a, b[0])| <= k < l < |r| && 0 <= j < |b[1..]| && b[1..][j] == r[l] ==>
      r[k] in b[1..][..j]
    ensures forall k :: |a| <= k < |r| ==> r[k] in b && r[k] !in r[..k]
    ensures forall k, l, j :: |a| <= k < l < |r| && 0 <= j < |b| && b[j] == r[l] ==> r[k] in b[..j]
  {
    var grown := AddColumn(a, b[0]);
    assert b[0] in r[..|grown|];
    forall k, l, j | |a| <= k < l < |r| && 0 <= j < |b| && b[j] == r[l]
      ensures r[k] in b[..j]
    {
      assert r[l] != b[0] by {
        assert r[..|grown|] <= r[..l];
      }
      assert j > 0 && b[1..][j - 1] == r[l];
      if k < |grown| {
        assert r[k] == b[0];
      } else {
        assert r[k] in b[1..][..j - 1];
        assert b[1..][..j - 1] == b[1..j];
      }
    }
  }

  /** `pd.concat([stored, added], ignore_index=True)`: the rows of `added`
      after those of `stored`. */
  function Concat(stored: Table, added: Table): (r: Table)
    ensures r.rows == stored.rows + added.rows
    ensures stored.rows <= r.rows && |r.rows| == |stored.rows| + |added.rows|
    ensures forall c :: c in r.columns <==> c in stored.columns || c in added.columns
    ensures UnionInOrder(stored.columns, added.columns, r.columns)
  {
    Table(UnionColumns(stored.columns, added.columns), stored.rows + added.rows)
  }

  /** The first of `names` that is not a column of `columns`. */
  function FirstMissing(columns: seq<string>, names: seq<string>): (r: Option<string>)
    ensures r.None? <==> forall i :: 0 <= i < |names| ==> names[i] in columns
    ensures r.None? <==> forall c :: c in names ==> c in columns
    ensures r.Some? ==> r.value in names && r.value !in columns
    ensures r.Some? ==>
      exists k :: 0 <= k < |names| && names[k] == r.value && forall j :: 0 <= j < k ==> names[j] in columns
    decreases |names|
  {
    if |names| == 0 then None
    else if names[0] !in columns then Some(names[0])
    else
      assert forall j :: 1 <= j < |names| ==> names[j] == names[1..][j - 1];
      FirstMissing(columns, names[1..])
  }

  /** The test `c not in names`, as one function value so that filters
      written with it can be compared. */
  function Outside(names: seq<string>): string -> bool {
    (c: string) => c !in names
  }

  /** `t.drop(columns=names)`: raises when a name is not a column, otherwise
      removes every column called by one of `names` from the header and
      from each row. */
  function DropColumns(t: Table, names: seq<string>): (r: Result<Table, Error>)
    ensures r.Failure? <==> exists i :: 0 <= i < |names| && names[i] !in t.columns
    ensures r.Failure? ==> r.error.MissingColumn? && r.error.name in names
    ensures r.Success? ==> forall c :: c in r.value.columns <==> c in t.columns && c !in names
    ensures r.Success? ==> r.value.columns == Filter(t.columns, Outside(names))
    ensures r.Success? ==> |r.value.rows| == |t.rows|
    ensures r.Success? ==> forall i :: 0 <= i < |t.rows| ==>
      forall c :: c in r.value.rows[i] <==> c in t.rows[i] && c !in names
    ensures r.Success? ==> forall i, c :: 0 <= i < |t.rows| && c in r.value.rows[i] ==>
      r.value.rows[i][c] == t.rows[i][c]
  {
    match FirstMissing(t.columns, names)
    case Some(name) => Failure(MissingColumn(name))
    case None =>
      var gone := set n | n in names;
      Success(Table(Filter(t.columns, Outside(names)),
                    seq(|t.rows|, i requires 0 <= i < |t.rows| => t.rows[i] - gone)))
  }

  /** `t.rename(columns={from: to})`: an absent `from` is not an error. */
  function RenameColumn(t: Table, from: string, to: string): (r: Table)
    requires from != to
    ensures |r.columns| == |t.columns|
    ensures forall k :: 0 <= k < |t.columns| ==>
      r.columns[k] == if t.columns[k] == from then to else t.columns[k]
    ensures forall c :: c in r.columns <==> (c in t.columns && c != from) || (c == to && from in t.columns)
    ensures |r.rows| == |t.rows|
    ensures forall i :: 0 <= i < |t.rows| && from in t.rows[i] ==>
      from !in r.rows[i] && to in r.rows[i] && r.rows[i][to] == t.rows[i][from]
    ensures forall i :: 0 <= i < |t.rows| && from !in t.rows[i] ==> r.rows[i] == t.rows[i]
    ensures forall i, c :: 0 <= i < |t.rows| && c != from && c != to && c in t.rows[i] ==>
      c in r.rows[i] && r.rows[i][c] == t.rows[i][c]
  {
    var columns := seq(|t.columns|, k requires 0 <= k < |t.columns| =>
                         if t.columns[k] == from then to else t.columns[k]);
    assert forall c :: c in t.columns && c != from ==> c in columns by {
      forall c | c in t.columns && c != from ensures c in columns {
        var k :| 0 <= k < |t.columns| && t.columns[k] == c;
        assert columns[k] == c;
      }
    }
    assert from in t.columns ==> to in columns by {
      if from in t.columns {
        var k :| 0 <= k < |t.columns| && t.columns[k] == from;
        assert columns[k] == to;
      }
    }
    Table(columns,
          seq(|t.rows|, i requires 0 <= i < |t.rows| => RenameCell(t.rows[i], from, to)))
  }

  function RenameCell(row: Row, from: string, to: string): Row {
    if from in row then (row - {from})[to := row[from]] else row
  }
}

=== FILE: ingest.dfy ===
/** The ingest step for one uploaded HoopStats export (app.py:84-115): find
    the SG Arese U15 block, turn its ragged comma-separated lines into rows,
    tag them with the match and date, clean the columns, derive the
    counters and `Contribution`, and append the rows to the stored dataset.
    Decoding the upload and writing the CSV store are not modelled: the
    export arrives as its lines and the store as a `Table`. */
module Ingest {
  import opened Results
  import opened Text
  import opened Seqs
  import opened Frame

  const HomeMarker: string := "HOME:  SG Arese U15"
  const VisitorsMarker: string := "VISITORS:  SG Arese U15"
  const EndMarker: string := "Team Events"

  /** A line that opens the team's block. */
  predicate IsStartLine(line: string) {
    StartsWith(line, HomeMarker) || StartsWith(line, VisitorsMarker)
  }

  /** A line that closes the team's block. */
  predicate IsEndLine(line: string) {
    StartsWith(line, EndMarker)
  }

  /** A start line begins with `H` or `V`, an end line with `T`. */
  lemma StartIsNotEnd(line: string)
    requires IsStartLine(line)
    ensures !IsEndLine(line)
  {
    assert line[0] == HomeMarker[0] || line[0] == VisitorsMarker[0];
  }

  /** The block is `content[start..end]`. */
  datatype Span = Span(start: nat, end: nat)

  /** Lines 87-89: the first start line, then the first end line at or after
      it. No start line means there is nothing to ingest; a start line with
      no end line after it is the StopIteration of line 89. */
  function LocateBlock(content: seq<string>): (r: Result<Option<Span>, Error>)
    ensures r == Success(None) <==> forall i :: 0 <= i < |content| ==> !IsStartLine(content[i])
    ensures r.Success? && r.value.Some? ==>
      var sp := r.value.value;
      && sp.start < sp.end < |content|
      && IsStartLine(content[sp.start])
      && (forall i :: 0 <= i < sp.start ==> !IsStartLine(content[i]))
      && IsEndLine(content[sp.end])
      && (forall i :: sp.start <= i < sp.end ==> !IsEndLine(content[i]))
    ensures r.Failure? <==>
      exists s :: 0 <= s < |content| && IsStartLine(content[s])
        && (forall i :: 0 <= i < s ==> !IsStartLine(content[i]))
        && (forall j :: s <= j < |content| ==> !IsEndLine(content[j]))
    ensures r.Failure? ==> r.error == MissingEndMarker
  {
    match FindFirst(content, IsStartLine, 0)
    case None => Success(None)
    case Some(start) =>
      match FindFirst(content, IsEndLine, start)
      case None => Failure(MissingEndMarker)
      case Some(end) =>
        StartIsNotEnd(content[start]);
        Success(Some(Span(start, end)))
  }

  /** Line 95: a row as long as the header is kept, any other row is cut
      with `row[:width]`, which leaves a short row as it is. */
  function Truncate(fields: seq<string>, width: nat): (r: seq<string>)
    ensures |r| <= width
    ensures |fields| >= width ==> r == fields[..width]
    ensures |fields| < width ==> r == fields
  {
    if |fields| == width then fields
    else fields[..if width < |fields| then width else |fields|]
  }

  /** The length of the longest row, 0 when there is none. */
  function Widest(rows: seq<seq<string>>): (r: nat)
    ensures forall i :: 0 <= i < |rows| ==> |rows[i]| <= r
    ensures |rows| > 0 ==> exists i :: 0 <= i < |rows| && |rows[i]| == r
    ensures |rows| == 0 ==> r == 0
    decreases |rows|
  {
    if |rows| == 0 then 0
    else
      var rest := Widest(rows[1..]);
      if |rows[0]| >= rest then |rows[0]| else rest
  }

  /** One row of `pd.DataFrame(rows, columns=header)`: the k-th field under
      the k-th column name. A missing trailing field has no entry. Where the
      header names a column twice the first field is kept. */
  function ZipRow(header: seq<string>, fields: seq<string>): (r: Row)
    ensures forall c :: c in r <==> exists k :: 0 <= k < |header| && k < |fields| && header[k] == c
    ensures forall k :: 0 <= k < |header| && k < |fields| && header[k] !in header[..k] ==>
      r[header[k]] == Text(fields[k])
    decreases |header|
  {
    if |header| == 0 || |fields| == 0 then map[]
    else
      var rest := ZipRow(header[1..], fields[1..]);
      assert forall k :: 1 <= k < |header| ==> header[1..][k - 1] == header[k];
      assert forall k :: 1 <= k < |header| && header[k] !in header[..k] ==>
        header[k] != header[0] && header[1..][k - 1] !in header[1..][..k - 1];
      rest[header[0] := Text(fields[0])]
  }

  /** Line 95 over all data lines. */
  function NormalizeLines(lines: seq<string>, width: nat): (r: seq<seq<string>>)
    ensures |r| == |lines|
    ensures forall i :: 0 <= i < |lines| ==> |r[i]| <= width && r[i] <= Split(lines[i], ',')
    ensures forall i :: 0 <= i < |lines| ==> |r[i]| == width || r[i] == Split(lines[i], ',')
  {
    seq(|lines|, i requires 0 <= i < |lines| => Truncate(Split(lines[i], ','), width))
  }

  /** After truncation the widest row falls short of the header exactly when
      every line splits into fewer fields than the header has. */
  lemma ShortOfHeader(lines: seq<string>, width: nat)
    ensures |lines| > 0 ==>
      (Widest(NormalizeLines(lines, width)) != width <==>
       forall i :: 0 <= i < |lines| ==> |Split(lines[i], ',')| < width)
  {
    if |lines| == 0 {
      return;
    }
    var fields := NormalizeLines(lines, width);
    var widest := Widest(fields);
    if widest != width {
      forall i | 0 <= i < |lines|
        ensures |Split(lines[i], ',')| < width
      {
        assert |fields[i]| <= widest;
      }
    } else {
      var i :| 0 <= i < |fields| && |fields[i]| == widest;
      assert |Split(lines[i], ',')| >= width;
    }
  }

  /** Lines 93-96: the header is the block's second line; every later line
      becomes one row. The DataFrame constructor raises when there are rows
      and none of them reaches the header's width. */
  function ReadBlock(block: seq<string>): (r: Result<Table, Error>)
    ensures r == Failure(MissingHeader) <==> |block| < 2
    ensures r.Failure? <==>
      |block| < 2 || (|block| > 2 && forall i :: 2 <= i < |block| ==>
                        |Split(block[i], ',')| < |Split(block[1], ',')|)
    ensures r.Success? ==>
      && |block| >= 2
      && r.value.columns == Split(block[1], ',')
      && |r.value.rows| == |block| - 2
      && forall i :: 0 <= i < |block| - 2 ==>
           r.value.rows[i] == ZipRow(r.value.columns, Truncate(Split(block[i + 2], ','), |r.value.columns|))
  {
    if |block| < 2 then Failure(MissingHeader)
    else
      var header := Split(block[1], ',');
      assert forall i :: 2 <= i < |block| ==> block[i] == block[2..][i - 2];
      match ReadLines(header, block[2..])
      case Failure(e) => Failure(e)
      case Success(rows) => Success(Table(header, rows))
  }

  /** Lines 94-96 on the data lines under `header`: the rows, or the
      constructor's width error when there are lines and none reaches the
      header's width. */
  function ReadLines(header: seq<string>, lines: seq<string>): (r: Result<seq<Row>, Error>)
    ensures r.Failure? <==> |lines| > 0 && forall i :: 0 <= i < |lines| ==> |Split(lines[i], ',')| < |header|
    ensures r.Failure? ==> r.error.WidthMismatch?
    ensures r.Success? ==> |r.value| == |lines| && forall i :: 0 <= i < |lines| ==>
      r.value[i] == ZipRow(header, Truncate(Split(lines[i], ','), |header|))
  {
    var width := |header|;
    var fields := NormalizeLines(lines, width);
    var widest := Widest(fields);
    ShortOfHeader(lines, width);
    if |fields| > 0 && widest != width then
      Failure(WidthMismatch(width, widest))
    else
      Success(seq(|fields|, i requires 0 <= i < |fields| => ZipRow(header, fields[i])))
  }

  /** Lines 99-100: every row gets the same `Match` and `Date`. */
  function Tag(t: Table, matchName: string, date: string): (r: Table)
    ensures "Match" in r.columns && "Date" in r.columns && t.columns <= r.columns
    ensures forall c :: c in r.columns <==> c in t.columns || c == "Match" || c == "Date"
    ensures r.columns == t.columns + Filter(["Match", "Date"], Outside(t.columns))
    ensures |r.rows| == |t.rows|
    ensures forall i :: 0 <= i < |r.rows| ==>
      && Get(r.rows[i], "Match") == Some(Text(matchName))
      && Get(r.rows[i], "Date") == Some(Text(date))
      && forall c :: c != "Match" && c != "Date" ==> Get(r.rows[i], c) == Get(t.rows[i], c)
  {
    Table(AddColumn(AddColumn(t.columns, "Match"), "Date"),
          seq(|t.rows|, i requires 0 <= i < |t.rows| =>
                t.rows[i]["Match" := Text(matchName)]["Date" := Text(date)]))
  }

  /** The header after lines 103-104, in its order: every `Custom 2`
      removed and every `Steps` read as `Travelling`. */
  function CleanedHeader(columns: seq<string>): seq<string> {
    var kept := Filter(columns, Outside(["Custom 2"]));
    seq(|kept|, k requires 0 <= k < |kept| => if kept[k] == "Steps" then "Travelling" else kept[k])
  }

  /** Lines 103-104: `Custom 2` must exist and is dropped; `Steps` becomes
      `Travelling`. */
  function Clean(t: Table): (r: Result<Table, Error>)
    ensures r.Failure? <==> "Custom 2" !in t.columns
    ensures r.Failure? ==> r.error == MissingColumn("Custom 2")
    ensures r.Success? ==>
      && (forall c :: c in r.value.columns <==>
            (c in t.columns && c != "Custom 2" && c != "Steps") || (c == "Travelling" && "Steps" in t.columns))
      && r.value.columns == CleanedHeader(t.columns)
      && |r.value.rows| == |t.rows|
      && forall i :: 0 <= i < |t.rows| ==> CleanedRow(t.rows[i], r.value.rows[i])
  {
    match DropColumns(t, ["Custom 2"])
    case Failure(e) => Failure(e)
    case Success(dropped) =>
      var renamed := RenameColumn(dropped, "Steps", "Travelling");
      CleanedRows(t, dropped);
      Success(renamed)
  }

  /** Lines 103-104 on one row: `Custom 2` and `Steps` are gone, the old
      `Steps` cell is now under `Travelling`, a row without one keeps its
      `Travelling` cell, and every other cell is unchanged. */
  ghost predicate CleanedRow(before: Row, after: Row) {
    && "Custom 2" !in after && "Steps" !in after
    && ("Steps" in before ==> Get(after, "Travelling") == Some(before["Steps"]))
    && ("Steps" !in before ==> Get(after, "Travelling") == Get(before, "Travelling"))
    && forall c :: c != "Custom 2" && c != "Steps" && c != "Travelling" ==> Get(after, c) == Get(before, c)
  }

  lemma CleanedRows(t: Table, dropped: Table)
    requires DropColumns(t, ["Custom 2"]) == Success(dropped)
    ensures var r := RenameColumn(dropped, "Steps", "Travelling");
      |r.rows| == |t.rows| && forall i :: 0 <= i < |t.rows| ==> CleanedRow(t.rows[i], r.rows[i])
  {
    var r := RenameColumn(dropped, "Steps", "Travelling");
    forall i | 0 <= i < |t.rows|
      ensures CleanedRow(t.rows[i], r.rows[i])
    {
      forall c | c != "Custom 2" && c != "Steps" && c != "Travelling"
        ensures Get(r.rows[i], c) == Get(t.rows[i], c)
      {
        assert Get(r.rows[i], c) == Get(dropped.rows[i], c);
      }
    }
  }

  const Positive: seq<string> := ["Points", "Assists", "Block", "Deflection", "Steal", "Def Reb", "Off Reb"]
  const Negative: seq<string> := ["Fouls", "Travelling", "T-over"]

  /** Line 107: the ten counters, in the order the source lists them. */
  const Counters: seq<string> := Positive + Negative

  /** Line 108 on one cell: `pd.to_numeric(errors='coerce')` then
      `fillna(0)`. */
  function Coerce(c: Option<Cell>): (r: int)
    ensures c.None? ==> r == 0
    ensures c.Some? && c.value.Num? ==> r == c.value.value
    ensures c.Some? && c.value.Text? ==> var t := c.value.text;
      && (IsDigits(t) ==> r == DigitsValue(t))
      && (|t| >= 2 && t[0] == '-' && IsDigits(t[1..]) ==> r == -(DigitsValue(t[1..]) as int))
      && (|t| >= 2 && t[0] == '+' && IsDigits(t[1..]) ==> r == DigitsValue(t[1..]))
      && (!IsDigits(t) && !(|t| >= 2 && (t[0] == '-' || t[0] == '+') && IsDigits(t[1..])) ==> r == 0)
  {
    match c
    case None => 0
    case Some(Num(n)) => n
    case Some(Text(t)) => ParseInt(t).GetOr(0)
  }

  /** The numeric value of a counter cell of `row`. */
  function Value(row: Row, column: string): int {
    Coerce(Get(row, column))
  }

  function SumOf(row: Row, columns: seq<string>): int
    decreases |columns|
  {
    if |columns| == 0 then 0 else Value(row, columns[0]) + SumOf(row, columns[1..])
  }

  /** Line 108 on one row: every listed counter holds its coerced number. */
  function CoerceCounters(row: Row, names: seq<string>): (r: Row)
    ensures forall c :: c in r <==> c in row || c in names
    ensures forall c :: c in names ==> r[c] == Num(Value(row, c))
    ensures forall c :: c in row && c !in names ==> r[c] == row[c]
    decreases |names|
  {
    if |names| == 0 then row
    else
      var first := row[names[0] := Num(Value(row, names[0]))];
      var r := CoerceCounters(first, names[1..]);
      assert forall k :: 1 <= k < |names| ==> names[k] == names[1..][k - 1];
      assert forall n :: n in names[1..] ==> Value(first, n) == Value(row, n);
      r
  }

  /** None of the columns the pipeline adds or removes is a counter. */
  lemma CountersAreDistinct()
    ensures |Counters| == 10
    ensures "Contribution" !in Counters && "Match" !in Counters && "Date" !in Counters
    ensures "Custom 2" !in Counters && "Steps" !in Counters
  {
  }

  /** Line 109-111: `Contribution` of a row, from its coerced counters. */
  function ContributionOf(row: Row): int {
    SumOf(row, Positive) - SumOf(row, Negative)
  }

  /** `ContributionOf` is the source's sum: seven positive counters minus
      three negative ones. */
  lemma {:induction false} ContributionFormula(row: Row)
    ensures ContributionOf(row) ==
        Value(row, "Points") + Value(row, "Assists") + Value(row, "Block")
      + Value(row, "Deflection") + Value(row, "Steal") + Value(row, "Def Reb")
      + Value(row, "Off Reb") - Value(row, "Fouls") - Value(row, "Travelling")
      - Value(row, "T-over")
  {
    var p := Positive;
    assert SumOf(row, p[6..]) == Value(row, "Off Reb");
    assert SumOf(row, p[5..]) == Value(row, "Def Reb") + SumOf(row, p[6..]);
    assert SumOf(row, p[4..]) == Value(row, "Steal") + SumOf(row, p[5..]);
    assert SumOf(row, p[3..]) == Value(row, "Deflection") + SumOf(row, p[4..]);
    assert SumOf(row, p[2..]) == Value(row, "Block") + SumOf(row, p[3..]);
    assert SumOf(row, p[1..]) == Value(row, "Assists") + SumOf(row, p[2..]);
    var n := Negative;
    assert SumOf(row, n[2..]) == Value(row, "T-over");
    assert SumOf(row, n[1..]) == Value(row, "Travelling") + SumOf(row, n[2..]);
  }

  /** Rows that agree on the values of `columns` have the same sum over them. */
  lemma {:induction false} SumOfAgree(a: Row, b: Row, columns: seq<string>)
    requires forall k :: 0 <= k < |columns| ==> Value(a, columns[k]) == Value(b, columns[k])
    ensures SumOf(a, columns) == SumOf(b, columns)
    decreases |columns|
  {
    if |columns| > 0 {
      assert forall k :: 1 <= k < |columns| ==> columns[1..][k - 1] == columns[k];
      SumOfAgree(a, b, columns[1..]);
    }
  }

  /** The derived row before its contract is established. */
  function CoercedWithContribution(row: Row): Row {
    CoerceCounters(row, Counters)["Contribution" := Num(ContributionOf(row))]
  }

  lemma DerivedCounters(row: Row)
    ensures var r := CoercedWithContribution(row);
      forall c :: c in Counters ==> Get(r, c) == Some(Num(Value(row, c)))
  {
    CountersAreDistinct();
  }

  lemma DerivedOthers(row: Row)
    ensures var r := CoercedWithContribution(row);
      && (forall c :: c in r <==> c in row || c in Counters || c == "Contribution")
      && (forall c :: c !in Counters && c != "Contribution" ==> Get(r, c) == Get(row, c))
  {
  }

  lemma DerivedContribution(row: Row)
    ensures ContributionOf(CoercedWithContribution(row)) == ContributionOf(row)
  {
    CountersCover();
    DerivedSum(row, Positive);
    DerivedSum(row, Negative);
  }

  lemma CountersCover()
    ensures forall k :: 0 <= k < |Positive| ==> Positive[k] in Counters
    ensures forall k :: 0 <= k < |Negative| ==> Negative[k] in Counters
  {
    forall k | 0 <= k < |Positive|
      ensures Positive[k] in Counters
    {
      assert Counters[k] == Positive[k];
    }
    forall k | 0 <= k < |Negative|
      ensures Negative[k] in Counters
    {
      assert Counters[|Positive| + k] == Negative[k];
    }
  }

  /** Counters sum to the same in the derived row. */
  lemma DerivedSum(row: Row, names: seq<string>)
    requires forall k :: 0 <= k < |names| ==> names[k] in Counters
    ensures SumOf(CoercedWithContribution(row), names) == SumOf(row, names)
  {
    var r := CoercedWithContribution(row);
    DerivedCounters(row);
    forall k | 0 <= k < |names|
      ensures Value(r, names[k]) == Value(row, names[k])
    {
      assert Get(r, names[k]) == Some(Num(Value(row, names[k])));
    }
    SumOfAgree(r, row, names);
  }

  /** Lines 108-111 on one row: the ten counters become numbers, any that is
      absent or not numeric becoming 0, and `Contribution` is computed from
      them (see `ContributionFormula`). Nothing else changes. */
  function DeriveRow(row: Row): (r: Row)
    ensures forall c :: c in Counters ==> Get(r, c) == Some(Num(Value(row, c)))
    ensures Get(r, "Contribution") == Some(Num(ContributionOf(row)))
    ensures ContributionOf(r) == ContributionOf(row)
    ensures forall c :: c in r <==> c in row || c in Counters || c == "Contribution"
    ensures forall c :: c !in Counters && c != "Contribution" ==> Get(r, c) == Get(row, c)
  {
    DerivedCounters(row);
    DerivedOthers(row);
    DerivedContribution(row);
    CoercedWithContribution(row)
  }

  /** Deriving twice changes nothing: the coerced counters are already
      numbers and give the same `Contribution`. */
  lemma DeriveRowIdempotent(row: Row)
    ensures DeriveRow(DeriveRow(row)) == DeriveRow(row)
  {
    var once := DeriveRow(row);
    var twice := DeriveRow(once);
    forall c: string
      ensures Get(twice, c) == Get(once, c)
    {
      if c in Counters {
        assert Value(once, c) == Value(row, c);
      }
    }
    SameCells(twice, once);
  }

  /** Coercion keeps a number, and a number written to the store as decimal
      text and read back coerces to itself. */
  lemma CoerceKeepsNumbers(n: int)
    ensures Coerce(Some(Num(n))) == n
    ensures Coerce(Some(Text(IntToString(n)))) == n
  {
    ParseIntRoundTrip(n);
  }

  /** Lines 107-111: selecting the counters raises when one of them is not a
      column; otherwise every row is derived and `Contribution` is added. */
  function Derive(t: Table): (r: Result<Table, Error>)
    ensures r.Failure? <==> exists k :: 0 <= k < |Counters| && Counters[k] !in t.columns
    ensures r.Failure? ==> r.error.MissingColumn? && r.error.name in Counters
    ensures r.Success? ==>
      && (forall c :: c in r.value.columns <==> c in t.columns || c == "Contribution")
      && t.columns <= r.value.columns
      && r.value.columns == t.columns + Filter(["Contribution"], Outside(t.columns))
      && |r.value.rows| == |t.rows|
      && forall i :: 0 <= i < |t.rows| ==> r.value.rows[i] == DeriveRow(t.rows[i])
  {
    match FirstMissing(t.columns, Counters)
    case Some(name) => Failure(MissingColumn(name))
    case None => Success(Table(AddColumn(t.columns, "Contribution"), DeriveRows(t.rows)))
  }

  function DeriveRows(rows: seq<Row>): seq<Row> {
    seq(|rows|, i requires 0 <= i < |rows| => DeriveRow(rows[i]))
  }

  /** What every ingested row carries: the match and date of its export, no
      `Custom 2` or `Steps` cell, numeric counters and their `Contribution`. */
  predicate IsIngestedRow(row: Row, matchName: string, date: string) {
    && Get(row, "Match") == Some(Text(matchName))
    && Get(row, "Date") == Some(Text(date))
    && "Custom 2" !in row && "Steps" !in row
    && (forall c :: c in Counters ==> c in row && row[c].Num?)
    && Get(row, "Contribution") == Some(Num(ContributionOf(row)))
  }

  /** Rows tagged with a match and date keep the tags through cleaning and
      derivation and come out as ingested rows. */
  lemma TaggedRowsAreIngested(raw: Table, matchName: string, date: string)
    ensures var tagged := Tag(raw, matchName, date);
      Clean(tagged).Success? && Derive(Clean(tagged).value).Success? ==>
        var t := Derive(Clean(tagged).value).value;
        forall i :: 0 <= i < |t.rows| ==> IsIngestedRow(t.rows[i], matchName, date)
  {
    var tagged := Tag(raw, matchName, date);
    if Clean(tagged).Success? && Derive(Clean(tagged).value).Success? {
      var clean := Clean(tagged).value;
      var t := Derive(clean).value;
      forall i | 0 <= i < |t.rows|
        ensures IsIngestedRow(t.rows[i], matchName, date)
      {
        assert t.rows[i] == DeriveRow(clean.rows[i]);
        DerivedRowIsIngested(tagged.rows[i], clean.rows[i], matchName, date);
      }
    }
  }

  /** One tagged row, cleaned and derived, is an ingested row. */
  lemma DerivedRowIsIngested(tagged: Row, clean: Row, matchName: string, date: string)
    requires Get(tagged, "Match") == Some(Text(matchName)) && Get(tagged, "Date") == Some(Text(date))
    requires CleanedRow(tagged, clean)
    ensures IsIngestedRow(DeriveRow(clean), matchName, date)
  {
    CountersAreDistinct();
    var row := DeriveRow(clean);
    assert Get(clean, "Match") == Get(tagged, "Match");
    assert Get(clean, "Date") == Get(tagged, "Date");
    assert Get(row, "Custom 2") == Get(clean, "Custom 2");
    assert Get(row, "Steps") == Get(clean, "Steps");
    forall c | c in Counters
      ensures c in row && row[c].Num?
    {
      assert Get(row, c) == Some(Num(Value(clean, c)));
    }
  }

  /** A header lines 103-108 can process: it has `Custom 2` and every
      counter, `Travelling` possibly under its export name `Steps`. */
  predicate Ingestible(header: seq<string>) {
    && "Custom 2" in header
    && forall c :: c in Counters ==> c in header || (c == "Travelling" && "Steps" in header)
  }

  /** Cleaning a tagged table fails exactly without `Custom 2`, and deriving
      the cleaned one fails exactly when the header is not ingestible. */
  lemma IngestibleColumns(raw: Table, matchName: string, date: string)
    ensures var tagged := Tag(raw, matchName, date);
      && (Clean(tagged).Success? <==> "Custom 2" in raw.columns)
      && (Clean(tagged).Success? ==> (Derive(Clean(tagged).value).Success? <==> Ingestible(raw.columns)))
  {
    var tagged := Tag(raw, matchName, date);
    if Clean(tagged).Success? {
      var clean := Clean(tagged).value;
      CleanedColumns(raw, tagged, clean);
      CountersAreDistinct();
      CountersPresent(clean.columns, raw.columns);
      assert Derive(clean).Success? <==> FirstMissing(clean.columns, Counters).None?;
    }
  }

  /** The columns of the cleaned table, in terms of the export's header. */
  lemma CleanedColumns(raw: Table, tagged: Table, clean: Table)
    requires forall c :: c in tagged.columns <==> c in raw.columns || c == "Match" || c == "Date"
    requires Clean(tagged) == Success(clean)
    ensures forall c :: c != "Match" && c != "Date" ==>
      (c in clean.columns <==> (c in raw.columns && c != "Custom 2" && c != "Steps")
                               || (c == "Travelling" && "Steps" in raw.columns))
  {
  }

  /** Every counter is a cleaned column exactly when the header is
      ingestible, given which counters the cleaning keeps. */
  lemma CountersPresent(columns: seq<string>, header: seq<string>)
    requires forall c :: c in Counters ==>
      (c in columns <==> (c in header && c != "Custom 2" && c != "Steps") || (c == "Travelling" && "Steps" in header))
    requires "Custom 2" !in Counters && "Steps" !in Counters
    requires "Custom 2" in header
    ensures (forall c :: c in Counters ==> c in columns) <==> Ingestible(header)
  {
  }

  /** A column of the rows an export with this header contributes: the
      header's columns without `Custom 2` and `Steps`, `Travelling` when
      `Steps` was renamed to it, and the added `Match`, `Date` and
      `Contribution`. */
  predicate IngestedColumn(header: seq<string>, c: string) {
    || (c in header && c != "Custom 2" && c != "Steps")
    || (c == "Travelling" && "Steps" in header)
    || c == "Match" || c == "Date" || c == "Contribution"
  }

  /** The columns the pipeline adds to an export's rows, in the order lines
      99, 100 and 111 add them. */
  const AddedColumns: seq<string> := ["Match", "Date", "Contribution"]

  /** The columns of the rows an export with this header contributes, in
      order: the cleaned header, then those of `Match`, `Date` and
      `Contribution` the header did not already have. */
  function IngestedHeader(header: seq<string>): seq<string> {
    CleanedHeader(header) + Filter(AddedColumns, Outside(header))
  }

  /** Cleaning keeps exactly the names other than `Custom 2` and `Steps`,
      and gives `Travelling` for a `Steps`. */
  lemma CleanedHeaderMembers(columns: seq<string>)
    ensures forall c :: c in CleanedHeader(columns) <==>
      (c in columns && c != "Custom 2" && c != "Steps") || (c == "Travelling" && "Steps" in columns)
  {
    var kept := Filter(columns, Outside(["Custom 2"]));
    var cleaned := CleanedHeader(columns);
    forall c | c in columns && c != "Custom 2" && c != "Steps"
      ensures c in cleaned
    {
      var k :| 0 <= k < |kept| && kept[k] == c;
      assert cleaned[k] == c;
    }
    if "Steps" in columns {
      var k :| 0 <= k < |kept| && kept[k] == "Steps";
      assert cleaned[k] == "Travelling";
    }
  }

  /** Cleaning a header with names appended cleans the header and keeps the
      appended names, when none of them is `Custom 2` or `Steps`. */
  lemma CleanedHeaderAppend(header: seq<string>, extra: seq<string>)
    requires forall k :: 0 <= k < |extra| ==> extra[k] != "Custom 2" && extra[k] != "Steps"
    ensures CleanedHeader(header + extra) == CleanedHeader(header) + extra
  {
    var drop := Outside(["Custom 2"]);
    FilterAppend(header, extra, drop);
    FilterAll(extra, drop);
    var kept := Filter(header, drop);
    var whole := CleanedHeader(header + extra);
    var front := CleanedHeader(header);
    assert Filter(header + extra, drop) == kept + extra;
    assert |whole| == |front| + |extra|;
    forall k | 0 <= k < |whole|
      ensures whole[k] == (front + extra)[k]
    {
      if k < |kept| {
        assert (kept + extra)[k] == kept[k];
      } else {
        assert (kept + extra)[k] == extra[k - |kept|];
      }
    }
  }

  /** Tagging, cleaning and deriving give the columns of `IngestedHeader`,
      given how each step changes the column sequence. */
  lemma {:induction false} IngestedOrder(header: seq<string>, tagged: seq<string>, clean: seq<string>, derived: seq<string>)
    requires tagged == header + Filter(["Match", "Date"], Outside(header))
    requires clean == CleanedHeader(tagged)
    requires derived == clean + Filter(["Contribution"], Outside(clean))
    ensures derived == IngestedHeader(header)
  {
    var tags := Filter(["Match", "Date"], Outside(header));
    assert forall k :: 0 <= k < |tags| ==> tags[k] in ["Match", "Date"];
    CleanedHeaderAppend(header, tags);
    CleanedHeaderMembers(header);
    assert "Contribution" in clean <==> "Contribution" in header;
    FilterAgree(["Contribution"], Outside(clean), Outside(header));
    assert AddedColumns == ["Match", "Date"] + ["Contribution"];
    FilterAppend(["Match", "Date"], ["Contribution"], Outside(header));
  }

  /** The columns after tagging, cleaning and deriving. */
  lemma IngestedColumns(raw: Table, matchName: string, date: string)
    ensures var tagged := Tag(raw, matchName, date);
      Clean(tagged).Success? && Derive(Clean(tagged).value).Success? ==>
        forall c :: c in Derive(Clean(tagged).value).value.columns <==> IngestedColumn(raw.columns, c)
  {
    var tagged := Tag(raw, matchName, date);
    if Clean(tagged).Success? && Derive(Clean(tagged).value).Success? {
      var clean := Clean(tagged).value;
      ColumnsChain(raw.columns, tagged.columns, clean.columns, Derive(clean).value.columns);
    }
  }

  lemma ColumnsChain(header: seq<string>, tagged: seq<string>, clean: seq<string>, derived: seq<string>)
    requires forall c :: c in tagged <==> c in header || c == "Match" || c == "Date"
    requires forall c :: c in clean <==>
      (c in tagged && c != "Custom 2" && c != "Steps") || (c == "Travelling" && "Steps" in tagged)
    requires forall c :: c in derived <==> c in clean || c == "Contribution"
    ensures forall c :: c in derived <==> IngestedColumn(header, c)
  {
  }

  /** A derived row against the line it was read from, `zipped` being the
      line's fields under the header: each counter holds the coerced field,
      `Travelling` reading the `Steps` field when the row has one, and every
      cell the pipeline does not write is the line's field. */
  ghost predicate FromLine(row: Row, zipped: Row) {
    && (forall c :: c in Counters && c != "Travelling" ==> Get(row, c) == Some(Num(Value(zipped, c))))
    && Get(row, "Travelling") == Some(Num(Value(zipped, if "Steps" in zipped then "Steps" else "Travelling")))
    && forall c ::
         c !in Counters && c != "Match" && c != "Date" && c != "Custom 2" && c != "Steps" && c != "Contribution"
         ==> Get(row, c) == Get(zipped, c)
  }

  lemma TravellingIsACounter()
    ensures "Travelling" in Counters
  {
    assert Counters[8] == "Travelling";
  }

  /** One line's row, tagged, cleaned and derived, keeps the line's fields. */
  lemma DerivedRowFromLine(zipped: Row, tagged: Row, clean: Row)
    requires forall c :: c != "Match" && c != "Date" ==> Get(tagged, c) == Get(zipped, c)
    requires CleanedRow(tagged, clean)
    ensures FromLine(DeriveRow(clean), zipped)
  {
    DerivedCountersFromLine(zipped, tagged, clean);
    DerivedTravellingFromLine(zipped, tagged, clean);
    DerivedOthersFromLine(zipped, tagged, clean);
  }

  lemma DerivedCountersFromLine(zipped: Row, tagged: Row, clean: Row)
    requires forall c :: c != "Match" && c != "Date" ==> Get(tagged, c) == Get(zipped, c)
    requires CleanedRow(tagged, clean)
    ensures forall c :: c in Counters && c != "Travelling" ==>
      Get(DeriveRow(clean), c) == Some(Num(Value(zipped, c)))
  {
    CountersAreDistinct();
    forall c | c in Counters && c != "Travelling"
      ensures Get(DeriveRow(clean), c) == Some(Num(Value(zipped, c)))
    {
      assert Get(clean, c) == Get(tagged, c);
    }
  }

  lemma DerivedTravellingFromLine(zipped: Row, tagged: Row, clean: Row)
    requires forall c :: c != "Match" && c != "Date" ==> Get(tagged, c) == Get(zipped, c)
    requires CleanedRow(tagged, clean)
    ensures Get(DeriveRow(clean), "Travelling")
      == Some(Num(Value(zipped, if "Steps" in zipped then "Steps" else "Travelling")))
  {
    TravellingIsACounter();
    assert Get(tagged, "Steps") == Get(zipped, "Steps");
    assert Get(tagged, "Travelling") == Get(zipped, "Travelling");
  }

  lemma DerivedOthersFromLine(zipped: Row, tagged: Row, clean: Row)
    requires forall c :: c != "Match" && c != "Date" ==> Get(tagged, c) == Get(zipped, c)
    requires CleanedRow(tagged, clean)
    ensures forall c ::
      c !in Counters && c != "Match" && c != "Date" && c != "Custom 2" && c != "Steps" && c != "Contribution"
      ==> Get(DeriveRow(clean), c) == Get(zipped, c)
  {
    TravellingIsACounter();
  }

  /** Every row the block's table yields keeps its line's fields. */
  lemma TaggedRowsFromLines(raw: Table, matchName: string, date: string)
    ensures var tagged := Tag(raw, matchName, date);
      Clean(tagged).Success? && Derive(Clean(tagged).value).Success? ==>
        var t := Derive(Clean(tagged).value).value;
        |t.rows| == |raw.rows| && forall i :: 0 <= i < |t.rows| ==> FromLine(t.rows[i], raw.rows[i])
  {
    var tagged := Tag(raw, matchName, date);
    if Clean(tagged).Success? && Derive(Clean(tagged).value).Success? {
      var clean := Clean(tagged).value;
      var t := Derive(clean).value;
      forall i | 0 <= i < |t.rows|
        ensures FromLine(t.rows[i], raw.rows[i])
      {
        assert t.rows[i] == DeriveRow(clean.rows[i]);
        DerivedRowFromLine(raw.rows[i], tagged.rows[i], clean.rows[i]);
      }
    }
  }

  /** The table of a block, in terms of the export's own lines. */
  lemma BlockLines(content: seq<string>, sp: Span)
    requires sp.start < sp.end < |content|
    ensures var raw := ReadBlock(content[sp.start..sp.end]);
      raw.Success? ==>
        var header := Split(content[sp.start + 1], ',');
        && raw.value.columns == header
        && |raw.value.rows| == sp.end - sp.start - 2
        && forall i :: 0 <= i < |raw.value.rows| ==>
             raw.value.rows[i] == ZipRow(header, Truncate(Split(content[sp.start + 2 + i], ','), |header|))
  {
    var block := content[sp.start..sp.end];
    assert forall k :: 0 <= k < |block| ==> block[k] == content[sp.start + k];
    if ReadBlock(block).Success? {
      BlockRows(block, ReadBlock(block).value, content, sp.start);
    }
  }

  /** The rows read from a block cut out of `content` at `start`, in terms
      of the lines of `content`. */
  lemma BlockRows(block: seq<string>, raw: Table, content: seq<string>, start: nat)
    requires start + |block| <= |content|
    requires forall k :: 0 <= k < |block| ==> block[k] == content[start + k]
    requires ReadBlock(block) == Success(raw)
    ensures |block| >= 2 && raw.columns == Split(content[start + 1], ',')
    ensures |raw.rows| == |block| - 2
    ensures forall i :: 0 <= i < |raw.rows| ==>
      raw.rows[i] == ZipRow(raw.columns, Truncate(Split(content[start + 2 + i], ','), |raw.columns|))
  {
    assert block[1] == content[start + 1];
    forall i | 0 <= i < |raw.rows|
      ensures raw.rows[i] == ZipRow(raw.columns, Truncate(Split(content[start + 2 + i], ','), |raw.columns|))
    {
      assert block[i + 2] == content[start + 2 + i];
    }
  }


  /** Lines 87-111: the rows one export contributes, `None` when it has no
      SG Arese U15 block. The match name is the export's second line and the
      date the first field of its third line, wherever the block starts. */
  function NewRows(content: seq<string>): (r: Result<Option<Table>, Error>)
    ensures r == Success(None) <==> LocateBlock(content) == Success(None)
    ensures LocateBlock(content).Failure? ==> r == Failure(MissingEndMarker)
    ensures r.Failure? <==>
      || LocateBlock(content).Failure?
      || (LocateBlock(content).Success? && LocateBlock(content).value.Some? &&
          var sp := LocateBlock(content).value.value;
          ReadBlock(content[sp.start..sp.end]).Failure? || !Ingestible(Split(content[sp.start + 1], ',')))
    ensures r.Success? && r.value.Some? ==>
      && LocateBlock(content).Success? && LocateBlock(content).value.Some?
      && |content| >= 3
      && var sp := LocateBlock(content).value.value;
      && |r.value.value.rows| == sp.end - sp.start - 2
      && forall i :: 0 <= i < |r.value.value.rows| ==>
           IsIngestedRow(r.value.value.rows[i], content[1], FirstField(content[2], ','))
    ensures r.Success? && r.value.Some? ==>
      var header := Split(content[LocateBlock(content).value.value.start + 1], ',');
      && (forall c :: c in r.value.value.columns <==> IngestedColumn(header, c))
      && r.value.value.columns == IngestedHeader(header)
  {
    match LocateBlock(content)
    case Failure(e) => Failure(e)
    case Success(None) => Success(None)
    case Success(Some(sp)) =>
      var block := content[sp.start..sp.end];
      match ReadBlock(block)
      case Failure(e) => Failure(e)
      case Success(raw) =>
        var matchName := content[1];
        var date := FirstField(content[2], ',');
        var tagged := Tag(raw, matchName, date);
        assert block[1] == content[sp.start + 1];
        IngestibleColumns(raw, matchName, date);
        match Clean(tagged)
        case Failure(e) => Failure(e)
        case Success(clean) =>
          match Derive(clean)
          case Failure(e) => Failure(e)
          case Success(t) =>
            TaggedRowsAreIngested(raw, matchName, date);
            IngestedColumns(raw, matchName, date);
            IngestedOrder(raw.columns, tagged.columns, clean.columns, t.columns);
            Success(Some(t))
  }

  /** Each of `rows` comes from its line of `content`: the i-th from the
      i-th line after the header line at `start + 1`, split on commas, cut
      to the header's width and zipped with it. */
  ghost predicate RowsFromLines(rows: seq<Row>, content: seq<string>, start: nat) {
    && start + 1 + |rows| < |content|
    && var header := Split(content[start + 1], ',');
       forall i :: 0 <= i < |rows| ==>
         FromLine(rows[i], ZipRow(header, Truncate(Split(content[start + 2 + i], ','), |header|)))
  }

  /** Every new row keeps the fields of the export line it was read from:
      the i-th line after the header, split on commas, cut to the header's
      width and zipped with it. */
  lemma {:induction false} NewRowsKeepLines(content: seq<string>)
    ensures NewRows(content).Success? && NewRows(content).value.Some? ==>
      RowsFromLines(NewRows(content).value.value.rows, content, LocateBlock(content).value.value.start)
  {
    if NewRows(content).Success? && NewRows(content).value.Some? {
      var sp := LocateBlock(content).value.value;
      var raw := ReadBlock(content[sp.start..sp.end]).value;
      var matchName := content[1];
      var date := FirstField(content[2], ',');
      var clean := Clean(Tag(raw, matchName, date));
      assert clean.Success? && Derive(clean.value).Success?;
      var t := NewRows(content).value.value;
      assert Derive(clean.value) == Success(t);
      LinesOfBlock(content, sp, raw, matchName, date, t);
    }
  }

  /** The rows the pipeline derives from a block read out of `content`,
      against the lines of `content` they were read from. */
  lemma LinesOfBlock(content: seq<string>, sp: Span, raw: Table, matchName: string, date: string, t: Table)
    requires sp.start < sp.end < |content|
    requires ReadBlock(content[sp.start..sp.end]) == Success(raw)
    requires Clean(Tag(raw, matchName, date)).Success?
    requires Derive(Clean(Tag(raw, matchName, date)).value) == Success(t)
    ensures RowsFromLines(t.rows, content, sp.start)
  {
    BlockLines(content, sp);
    TaggedRowsFromLines(raw, matchName, date);
    var header := Split(content[sp.start + 1], ',');
    assert |t.rows| == |raw.rows| == sp.end - sp.start - 2;
    forall i | 0 <= i < |t.rows|
      ensures FromLine(t.rows[i], ZipRow(header, Truncate(Split(content[sp.start + 2 + i], ','), |header|)))
    {
      assert FromLine(t.rows[i], raw.rows[i]);
      assert raw.rows[i] == ZipRow(header, Truncate(Split(content[sp.start + 2 + i], ','), |header|));
    }
  }

  /** The rows an export adds to the store; none when it has no block. */
  function Added(content: seq<string>): seq<Row> {
    match NewRows(content)
    case Success(Some(t)) => t.rows
    case _ => []
  }

  /** Lines 87-114: the stored dataset after one upload. Without a block the
      store is unchanged; otherwise the new rows follow the stored ones. */
  function Ingest(stored: Table, content: seq<string>): (r: Result<Table, Error>)
    ensures LocateBlock(content) == Success(None) ==> r == Success(stored)
    ensures r.Failure? <==> NewRows(content).Failure?
    ensures r.Success? ==> r.value.rows == stored.rows + Added(content)
    ensures r.Success? ==> stored.rows <= r.value.rows
    ensures r.Success? ==> stored.columns <= r.value.columns
    ensures NewRows(content) == Success(None) ==> r == Success(stored)
    ensures NewRows(content).Success? && NewRows(content).value.Some? ==>
      r == Success(Concat(stored, NewRows(content).value.value))
  {
    match NewRows(content)
    case Failure(e) => Failure(e)
    case Success(None) => Success(stored)
    case Success(Some(t)) =>
      assert Added(content) == t.rows;
      Success(Concat(stored, t))
  }

  /** The number of stored rows grows by the block's lines after the header. */
  lemma IngestRowCount(stored: Table, content: seq<string>)
    ensures Ingest(stored, content).Success? && LocateBlock(content).Success? && LocateBlock(content).value.Some? ==>
      var sp := LocateBlock(content).value.value;
      |Ingest(stored, content).value.rows| == |stored.rows| + sp.end - sp.start - 2
  {
  }

  /** After an upload with a block, the store's columns are its old ones
      and then, in the export's order, the columns the pipeline gives the
      export that the store lacked (lines 99-111, 114). */
  lemma IngestColumns(stored: Table, content: seq<string>)
    ensures Ingest(stored, content).Success? && NewRows(content).value.Some? ==>
      var header := Split(content[LocateBlock(content).value.value.start + 1], ',');
      && (forall c :: c in Ingest(stored, content).value.columns <==> c in stored.columns || IngestedColumn(header, c))
      && UnionInOrder(stored.columns, IngestedHeader(header), Ingest(stored, content).value.columns)
  {
  }

  /** The first upload into the empty store (line 17) gives a store of
      exactly the export's new rows and columns. */
  lemma IngestIntoEmpty(content: seq<string>)
    ensures Ingest(Empty, content).Success? && NewRows(content).value.Some? ==>
      var t := NewRows(content).value.value;
      && Ingest(Empty, content).value.rows == t.rows
      && forall c :: c in Ingest(Empty, content).value.columns <==> c in t.columns
  {
  }

  /** Uploading the same export twice appends the same rows twice: nothing
      is de-duplicated. */
  lemma IngestTwice(stored: Table, content: seq<string>)
    ensures Ingest(stored, content).Success? ==>
      var once := Ingest(stored, content).value;
      && Ingest(once, content).Success?
      && Ingest(once, content).value.rows == stored.rows + Added(content) + Added(content)
  {
  }
}

=== FILE: results.dfy ===
/** Option and Result values, used where the program either has nothing to
    report (Option) or raises an exception (Result). */
module Results {

  datatype Option<+T> = None | Some(value: T) {

    /** The wrapped value, or `default` when there is none. */
    function GetOr(default: T): T {
      match this
      case Some(v) => v
      case None => default
    }
  }

  datatype Result<+T, +E> = Success(value: T) | Failure(error: E)
}

=== FILE: seqs.dfy ===
/** Sequence operations shared by the pipeline: Python's `next(...)` over an
    index range, `list.index`, `list.pop` / `list.insert`, and the row
    filter pandas applies with a boolean mask. */
module Seqs {
  import opened Results

  /** `next(i for i in range(from, len(s)) if p(s[i]))`, with `None` where
      Python would run out of candidates. */
  function FindFirst<T>(s: seq<T>, p: T -> bool, from: nat): (r: Option<nat>)
    ensures r.Some? ==> from <= r.value < |s| && p(s[r.value])
    ensures r.Some? ==> forall j :: from <= j < r.value ==> !p(s[j])
    ensures r.None? <==> forall j :: from <= j < |s| ==> !p(s[j])
    decreases |s| - from
  {
    if from >= |s| then None
    else if p(s[from]) then Some(from)
    else FindFirst(s, p, from + 1)
  }

  /** Python's `list.index(x)`, with `None` where Python raises. */
  function IndexOf<T(==)>(s: seq<T>, x: T): (r: Option<nat>)
    ensures r.Some? ==> r.value < |s| && s[r.value] == x && x !in s[..r.value]
    ensures r.None? <==> x !in s
  {
    FindFirst(s, (y: T) => y == x, 0)
  }

  /** `s.pop(i)`, keeping the remainder. */
  function RemoveAt<T>(s: seq<T>, i: nat): (r: seq<T>)
    requires i < |s|
    ensures |r| == |s| - 1
    ensures forall k :: 0 <= k < i ==> r[k] == s[k]
    ensures forall k :: i <= k < |r| ==> r[k] == s[k + 1]
  {
    s[..i] + s[i + 1..]
  }

  /** `s.insert(i, x)`: an index past the end appends, as Python does. */
  function InsertAt<T>(s: seq<T>, i: nat, x: T): (r: seq<T>)
    ensures |r| == |s| + 1
    ensures var k := if i <= |s| then i else |s|; r[k] == x && RemoveAt(r, k) == s
  {
    var k := if i <= |s| then i else |s|;
    var r := s[..k] + [x] + s[k..];
    assert RemoveAt(r, k) == s[..k] + s[k..];
    r
  }

  /** Removing an element and putting it back elsewhere keeps the multiset. */
  lemma MoveKeepsElements<T>(s: seq<T>, j: nat, i: nat)
    requires j < |s|
    ensures multiset(InsertAt(RemoveAt(s, j), i, s[j])) == multiset(s)
  {
    var rest := RemoveAt(s, j);
    var k := if i <= |rest| then i else |rest|;
    assert s == s[..j] + [s[j]] + s[j + 1..];
    assert multiset(s) == multiset(s[..j]) + multiset{s[j]} + multiset(s[j + 1..]);
    assert rest == s[..j] + s[j + 1..];
    assert multiset(rest) == multiset(s[..j]) + multiset(s[j + 1..]);
    assert rest == rest[..k] + rest[k..];
    assert multiset(rest) == multiset(rest[..k]) + multiset(rest[k..]);
    var moved := InsertAt(rest, i, s[j]);
    assert moved == rest[..k] + [s[j]] + rest[k..];
    assert multiset(moved) == multiset(rest[..k]) + multiset{s[j]} + multiset(rest[k..]);
    assert multiset(moved) == multiset(rest) + multiset{s[j]};
    assert multiset(moved) == multiset(s);
  }

  /** The elements of `s` that satisfy `keep`, in their original order. */
  function Filter<T>(s: seq<T>, keep: T -> bool): (r: seq<T>)
    ensures |r| <= |s|
    ensures forall i :: 0 <= i < |r| ==> keep(r[i])
    ensures forall i :: 0 <= i < |r| ==> r[i] in s
    ensures forall i :: 0 <= i < |s| && keep(s[i]) ==> s[i] in r
    decreases |s|
  {
    if |s| == 0 then []
    else
      var init := Filter(s[..|s| - 1], keep);
      assert s == s[..|s| - 1] + [s[|s| - 1]];
      if keep(s[|s| - 1]) then init + [s[|s| - 1]] else init
  }

  /** The positions `Filter` keeps, strictly increasing. */
  function KeptIndices<T>(s: seq<T>, keep: T -> bool): (r: seq<nat>)
    ensures |r| == |Filter(s, keep)|
    ensures forall k :: 0 <= k < |r| ==> r[k] < |s|
    ensures forall k, l :: 0 <= k < l < |r| ==> r[k] < r[l]
    decreases |s|
  {
    if |s| == 0 then []
    else
      var init := KeptIndices(s[..|s| - 1], keep);
      if keep(s[|s| - 1]) then init + [|s| - 1] else init
  }

  /** `r` is the subsequence of `s` at the strictly increasing positions `idx`. */
  ghost predicate SubsequenceAt<T>(r: seq<T>, s: seq<T>, idx: seq<nat>) {
    && |idx| == |r|
    && (forall k :: 0 <= k < |idx| ==> idx[k] < |s| && r[k] == s[idx[k]])
    && (forall k, l :: 0 <= k < l < |idx| ==> idx[k] < idx[l])
  }

  /** The filter is the subsequence of `s` at the kept positions. */
  lemma {:induction false} FilterAtKeptIndices<T>(s: seq<T>, keep: T -> bool)
    ensures SubsequenceAt(Filter(s, keep), s, KeptIndices(s, keep))
    decreases |s|
  {
    if |s| > 0 {
      var n := |s| - 1;
      FilterAtKeptIndices(s[..n], keep);
      var idx := KeptIndices(s[..n], keep);
      assert forall k :: 0 <= k < |idx| ==> s[..n][idx[k]] == s[idx[k]];
    }
  }

  /** A position is kept exactly when its element satisfies `keep`. */
  lemma {:induction false} KeptIndicesExact<T>(s: seq<T>, keep: T -> bool)
    ensures forall i :: 0 <= i < |s| ==> (keep(s[i]) <==> i in KeptIndices(s, keep))
    decreases |s|
  {
    if |s| > 0 {
      var n := |s| - 1;
      KeptIndicesExact(s[..n], keep);
      var idx := KeptIndices(s[..n], keep);
      var full := KeptIndices(s, keep);
      assert full == if keep(s[n]) then idx + [n] else idx;
      assert forall i :: i in full <==> i in idx || (keep(s[n]) && i == n);
      assert n !in idx;
      forall i | 0 <= i < n
        ensures keep(s[i]) <==> i in full
      {
        assert s[..n][i] == s[i];
      }
    }
  }

  /** The filter is an order-preserving subsequence that keeps exactly the
      positions whose element satisfies `keep`: nothing that passes is
      dropped. */
  lemma FilterIsSubsequence<T>(s: seq<T>, keep: T -> bool)
    ensures SubsequenceAt(Filter(s, keep), s, KeptIndices(s, keep))
    ensures forall i :: 0 <= i < |s| ==> (keep(s[i]) <==> i in KeptIndices(s, keep))
  {
    FilterAtKeptIndices(s, keep);
    KeptIndicesExact(s, keep);
  }

  /** Filtering a concatenation filters each part. */
  lemma {:induction false} FilterAppend<T>(a: seq<T>, b: seq<T>, keep: T -> bool)
    ensures Filter(a + b, keep) == Filter(a, keep) + Filter(b, keep)
    decreases |b|
  {
    if |b| == 0 {
      assert a + b == a;
    } else {
      var n := |b| - 1;
      assert (a + b)[..|a + b| - 1] == a + b[..n];
      FilterAppend(a, b[..n], keep);
    }
  }

  /** A filter that keeps everything is the identity. */
  lemma {:induction false} FilterAll<T>(s: seq<T>, keep: T -> bool)
    requires forall i :: 0 <= i < |s| ==> keep(s[i])
    ensures Filter(s, keep) == s
    decreases |s|
  {
    if |s| > 0 {
      FilterAll(s[..|s| - 1], keep);
      assert s[..|s| - 1] + [s[|s| - 1]] == s;
    }
  }

  /** Filters that agree on the elements of `s` keep the same elements. */
  lemma {:induction false} FilterAgree<T>(s: seq<T>, f: T -> bool, g: T -> bool)
    requires forall i :: 0 <= i < |s| ==> f(s[i]) == g(s[i])
    ensures Filter(s, f) == Filter(s, g)
    decreases |s|
  {
    if |s| > 0 {
      FilterAgree(s[..|s| - 1], f, g);
    }
  }

  /** A filter that keeps nothing is empty. */
  lemma {:induction false} FilterNone<T>(s: seq<T>, keep: T -> bool)
    requires forall i :: 0 <= i < |s| ==> !keep(s[i])
    ensures Filter(s, keep) == []
    decreases |s|
  {
    if |s| > 0 {
      FilterNone(s[..|s| - 1], keep);
    }
  }
}

=== FILE: text.dfy ===
/** String operations the ingest pipeline relies on: prefix tests, Python's
    `str.split` on one separator, decimal integers as `pd.to_numeric` reads
    them, and the `m:ss` clock text both views print. */
module Text {
  import opened Results

  /** Python's `str.startswith`. */
  predicate StartsWith(s: string, prefix: string) {
    |prefix| <= |s| && s[..|prefix|] == prefix
  }

  /** Python's `s.split(sep)`: every occurrence of `sep` separates two
      fields, so there is always at least one field, possibly empty. */
  function Split(s: string, sep: char): (r: seq<string>)
    ensures |r| >= 1
    ensures forall i :: 0 <= i < |r| ==> sep !in r[i]
    decreases |s|
  {
    if |s| == 0 then [""]
    else
      var rest := Split(s[1..], sep);
      if s[0] == sep then [""] + rest
      else [[s[0]] + rest[0]] + rest[1..]
  }

  /** Python's `sep.join(parts)`, the inverse of `Split`. */
  function Join(parts: seq<string>, sep: char): string
    requires |parts| >= 1
    decreases |parts|
  {
    if |parts| == 1 then parts[0] else parts[0] + [sep] + Join(parts[1..], sep)
  }

  /** Joining the fields of a split gives back the original text. */
  lemma {:induction false} JoinSplit(s: string, sep: char)
    ensures Join(Split(s, sep), sep) == s
    decreases |s|
  {
    if |s| > 0 {
      JoinSplit(s[1..], sep);
      var rest := Split(s[1..], sep);
      if s[0] == sep {
        assert ([""] + rest)[1..] == rest;
        assert s == [sep] + s[1..];
      } else {
        var parts := [[s[0]] + rest[0]] + rest[1..];
        if |rest| == 1 {
          assert s == [s[0]] + s[1..];
        } else {
          assert parts[1..] == rest[1..];
          assert Join(rest, sep) == rest[0] + [sep] + Join(rest[1..], sep);
          assert s == [s[0]] + s[1..];
        }
      }
    }
  }

  /** Text without a separator is a single field. */
  lemma {:induction false} SplitNoSeparator(a: string, sep: char)
    requires sep !in a
    ensures Split(a, sep) == [a]
    decreases |a|
  {
    if |a| > 0 {
      SplitNoSeparator(a[1..], sep);
      assert a == [a[0]] + a[1..];
    }
  }

  /** A separator-free leading part followed by a separator is the first field. */
  lemma {:induction false} SplitAfterField(a: string, b: string, sep: char)
    requires sep !in a
    ensures Split(a + [sep] + b, sep) == [a] + Split(b, sep)
    decreases |a|
  {
    var s := a + [sep] + b;
    if |a| == 0 {
      assert s[1..] == b;
    } else {
      assert s[1..] == a[1..] + [sep] + b;
      SplitAfterField(a[1..], b, sep);
      assert a == [a[0]] + a[1..];
    }
  }

  /** Splitting a join of separator-free fields gives back the fields. */
  lemma {:induction false} SplitJoin(parts: seq<string>, sep: char)
    requires |parts| >= 1
    requires forall i :: 0 <= i < |parts| ==> sep !in parts[i]
    ensures Split(Join(parts, sep), sep) == parts
    decreases |parts|
  {
    if |parts| == 1 {
      SplitNoSeparator(parts[0], sep);
    } else {
      SplitJoin(parts[1..], sep);
      SplitAfterField(parts[0], Join(parts[1..], sep), sep);
      assert parts == [parts[0]] + parts[1..];
    }
  }

  /** `s.split(sep)[0]`: the longest prefix of `s` free of `sep`. */
  function FirstField(s: string, sep: char): (r: string)
    ensures StartsWith(s, r)
    ensures sep !in r
    ensures |r| == |s| || s[|r|] == sep
  {
    JoinSplit(s, sep);
    Split(s, sep)[0]
  }

  predicate IsDigit(c: char) {
    '0' <= c <= '9'
  }

  /** One or more decimal digits. */
  predicate IsDigits(s: string) {
    |s| >= 1 && forall i :: 0 <= i < |s| ==> IsDigit(s[i])
  }

  function DigitValue(c: char): nat
    requires IsDigit(c)
  {
    c as int - '0' as int
  }

  function DigitChar(d: nat): (c: char)
    requires d < 10
    ensures IsDigit(c) && DigitValue(c) == d
  {
    ('0' as int + d) as char
  }

  /** The value of a string of decimal digits, most significant first. */
  function DigitsValue(s: string): nat
    requires forall i :: 0 <= i < |s| ==> IsDigit(s[i])
    decreases |s|
  {
    if |s| == 0 then 0 else DigitsValue(s[..|s| - 1]) * 10 + DigitValue(s[|s| - 1])
  }

  /** Decimal text of a natural number, without leading zeros. */
  function NatToString(n: nat): (r: string)
    ensures IsDigits(r)
    ensures |r| > 1 ==> r[0] != '0'
    decreases n
  {
    if n < 10 then [DigitChar(n)] else NatToString(n / 10) + [DigitChar(n % 10)]
  }

  lemma {:induction false} NatToStringValue(n: nat)
    ensures DigitsValue(NatToString(n)) == n
    decreases n
  {
    if n >= 10 {
      NatToStringValue(n / 10);
      var s := NatToString(n);
      assert s[..|s| - 1] == NatToString(n / 10);
    }
  }

  /** Decimal text of an integer, as a number is written back to the store. */
  function IntToString(n: int): string {
    if n < 0 then "-" + NatToString(-n) else NatToString(n)
  }

  /** The integer an optional sign followed by decimal digits denotes; any
      other text is not a number. */
  function ParseInt(s: string): (r: Option<int>)
    ensures r.Some? <==> IsDigits(s) || (|s| >= 2 && (s[0] == '-' || s[0] == '+') && IsDigits(s[1..]))
    ensures IsDigits(s) ==> r == Some(DigitsValue(s) as int)
    ensures |s| >= 2 && s[0] == '-' && IsDigits(s[1..]) ==> r == Some(-(DigitsValue(s[1..]) as int))
    ensures |s| >= 2 && s[0] == '+' && IsDigits(s[1..]) ==> r == Some(DigitsValue(s[1..]) as int)
  {
    if |s| >= 1 && (s[0] == '-' || s[0] == '+') then
      if IsDigits(s[1..]) then
        var magnitude: int := DigitsValue(s[1..]);
        Some(if s[0] == '-' then -magnitude else magnitude)
      else None
    else if IsDigits(s) then Some(DigitsValue(s))
    else None
  }

  /** Every integer written as decimal text reads back as itself. */
  lemma ParseIntRoundTrip(n: int)
    ensures ParseInt(IntToString(n)) == Some(n)
  {
    if n < 0 {
      var s := IntToString(n);
      assert s[1..] == NatToString(-n);
      NatToStringValue(-n);
    } else {
      NatToStringValue(n);
    }
  }

  /** A number below 100 as exactly two digits, Python's `:02d`. */
  function Pad2(n: nat): (r: string)
    requires n < 100
    ensures |r| == 2 && IsDigits(r) && DigitsValue(r) == n
  {
    var r := [DigitChar(n / 10), DigitChar(n % 10)];
    assert r[..1] == [DigitChar(n / 10)];
    assert r[..1][..0] == [];
    assert DigitsValue(r[..1]) == n / 10;
    r
  }

  /** Seconds as `m:ss`: whole minutes without padding, then the remaining
      seconds as two digits. */
  function RenderClock(secs: nat): (r: string)
    ensures |r| >= 4 && r[|r| - 3] == ':'
    ensures IsDigits(r[..|r| - 3]) && DigitsValue(r[..|r| - 3]) == secs / 60
    ensures |r| > 4 ==> r[0] != '0'
    ensures IsDigits(r[|r| - 2..]) && DigitsValue(r[|r| - 2..]) == secs % 60
  {
    var m := NatToString(secs / 60);
    var r := m + ":" + Pad2(secs % 60);
    assert r[..|r| - 3] == m;
    assert r[|r| - 2..] == Pad2(secs % 60);
    NatToStringValue(secs / 60);
    r
  }

  /** Reads `m:ss`: one or more minute digits, a colon, two second digits
      below 60. */
  function ParseClock(t: string): (r: Option<nat>)
    ensures r.Some? <==> |t| >= 4 && t[|t| - 3] == ':' && IsDigits(t[..|t| - 3]) && IsDigits(t[|t| - 2..])
                         && DigitsValue(t[|t| - 2..]) < 60
    ensures r.Some? ==> r.value / 60 == DigitsValue(t[..|t| - 3]) && r.value % 60 == DigitsValue(t[|t| - 2..])
  {
    if |t| >= 4 && t[|t| - 3] == ':' && IsDigits(t[..|t| - 3]) && IsDigits(t[|t| - 2..])
       && DigitsValue(t[|t| - 2..]) < 60
    then Some(DigitsValue(t[..|t| - 3]) * 60 + DigitsValue(t[|t| - 2..]))
    else None
  }

  /** The rendered clock splits into minutes m and seconds ss with
      m * 60 + ss == secs and ss < 60, so reading it back gives `secs`. */
  lemma ClockRoundTrip(secs: nat)
    ensures var t := RenderClock(secs);
      && |t| >= 4 && t[|t| - 3] == ':'
      && t[..|t| - 3] == NatToString(secs / 60)
      && DigitsValue(t[|t| - 2..]) == secs % 60
      && ParseClock(t) == Some(secs)
  {
  }

  /** A rendered clock is never the `"00:00"` placeholder: zero renders as
      `"0:00"`. */
  lemma RenderIsNotPlaceholder(secs: nat)
    ensures RenderClock(secs) != "00:00"
  {
    ClockRoundTrip(secs);
  }
}

=== FILE: view.dfy ===
/** The two views of the stored dataset (app.py:20-54 and 128-146): the
    rows the sidebar selection keeps, the data behind the scatter chart of
    `Contribution` against playing time, and the table shown below it.
    Widgets, plotting and the medians drawn as reference lines are not
    modelled; the chart is the list of points it would plot. */
module View {
  import opened Results
  import opened Text
  import opened Seqs
  import opened Frame
  import opened Ingest

  /** The "all" entries of the two multiselects. */
  const AllMatches: string := "Tutte"
  const AllPlayers: string := "Tutti"

  /** The entries picked in the match and player multiselects. */
  datatype Selection = Selection(matches: seq<string>, players: seq<string>)

  /** `row[column].isin(values)`: a missing or numeric cell matches nothing. */
  predicate CellIn(row: Row, column: string, values: seq<string>) {
    column in row && row[column].Text? && row[column].text in values
  }

  /** Lines 130-133 on one row: each filter applies only when its "all"
      entry is not selected. */
  predicate Keep(sel: Selection, row: Row) {
    && (AllMatches in sel.matches || CellIn(row, "Match", sel.matches))
    && (AllPlayers in sel.players || CellIn(row, "Player Name", sel.players))
  }

  /** Lines 129-133: the rows of the stored dataset the selection keeps. */
  function FilterRows(t: Table, sel: Selection): (r: Table)
    ensures r.columns == t.columns
    ensures |r.rows| <= |t.rows|
    ensures forall i :: 0 <= i < |r.rows| ==> r.rows[i] in t.rows
    ensures forall i :: 0 <= i < |t.rows| && Keep(sel, t.rows[i]) ==> t.rows[i] in r.rows
    ensures AllMatches !in sel.matches ==>
      forall i :: 0 <= i < |r.rows| ==> CellIn(r.rows[i], "Match", sel.matches)
    ensures AllPlayers !in sel.players ==>
      forall i :: 0 <= i < |r.rows| ==> CellIn(r.rows[i], "Player Name", sel.players)
    ensures AllMatches in sel.matches && AllPlayers in sel.players ==> r == t
  {
    var keep := (row: Row) => Keep(sel, row);
    if AllMatches in sel.matches && AllPlayers in sel.players then
      FilterAll(t.rows, keep);
      Table(t.columns, Filter(t.rows, keep))
    else
      Table(t.columns, Filter(t.rows, keep))
  }

  /** The filtered rows are the dataset's rows at increasing positions, and a
      position is kept exactly when the selection keeps its row. */
  lemma FilterRowsIsSubsequence(t: Table, sel: Selection)
    ensures var idx := KeptIndices(t.rows, (row: Row) => Keep(sel, row));
      && SubsequenceAt(FilterRows(t, sel).rows, t.rows, idx)
      && forall i :: 0 <= i < |t.rows| ==> (Keep(sel, t.rows[i]) <==> i in idx)
  {
    FilterIsSubsequence(t.rows, (row: Row) => Keep(sel, row));
  }

  /** With "Tutte" selected the other match entries have no effect, and with
      "Tutti" selected the other player entries have none. */
  lemma SentinelsOverride(t: Table, sel: Selection)
    ensures AllMatches in sel.matches ==>
      FilterRows(t, sel) == FilterRows(t, Selection([AllMatches], sel.players))
    ensures AllPlayers in sel.players ==>
      FilterRows(t, sel) == FilterRows(t, Selection(sel.matches, [AllPlayers]))
  {
    if AllMatches in sel.matches {
      var other := Selection([AllMatches], sel.players);
      FilterAgree(t.rows, (row: Row) => Keep(sel, row), (row: Row) => Keep(other, row));
    }
    if AllPlayers in sel.players {
      var other := Selection(sel.matches, [AllPlayers]);
      FilterAgree(t.rows, (row: Row) => Keep(sel, row), (row: Row) => Keep(other, row));
    }
  }

  /** Line 136: aggregate when both "all" entries are selected or more than
      one match entry is; the count includes "Tutte" itself. */
  predicate ShouldAggregate(sel: Selection) {
    (AllMatches in sel.matches && AllPlayers in sel.players) || |sel.matches| > 1
  }

  /** A row with match `m` and player `p` is kept exactly when each
      multiselect has its "all" entry or the row's own entry. */
  lemma KeepSelectsByCells(sel: Selection, row: Row, m: string, p: string)
    requires Get(row, "Match") == Some(Text(m)) && Get(row, "Player Name") == Some(Text(p))
    ensures Keep(sel, row) <==>
      (AllMatches in sel.matches || m in sel.matches) && (AllPlayers in sel.players || p in sel.players)
  {
  }

  /** "Tutte" counts as a selected match: together with any one match it
      aggregates, while a single other match alone does not. */
  lemma AllMatchesCounts(m: string, players: seq<string>)
    ensures ShouldAggregate(Selection([AllMatches, m], players))
    ensures m != AllMatches && AllPlayers !in players ==> !ShouldAggregate(Selection([m], players))
  {
  }

  /** Without aggregation the chart shows either the rows of at most one
      match or only rows of the selected players, so one point per row is
      what the chart wants. */
  lemma UnaggregatedViewIsNarrow(t: Table, sel: Selection)
    requires !ShouldAggregate(sel)
    ensures var rows := FilterRows(t, sel).rows;
      || (AllPlayers !in sel.players && forall i :: 0 <= i < |rows| ==> CellIn(rows[i], "Player Name", sel.players))
      || (forall i, j :: 0 <= i < |rows| && 0 <= j < |rows| ==> Get(rows[i], "Match") == Get(rows[j], "Match"))
  {
    var rows := FilterRows(t, sel).rows;
    if |sel.matches| == 0 {
      FilterNone(t.rows, (row: Row) => Keep(sel, row));
    } else if sel.matches[0] != AllMatches {
      assert sel.matches == [sel.matches[0]];
      assert forall i :: 0 <= i < |rows| ==> Get(rows[i], "Match") == Some(Text(sel.matches[0]));
    }
  }

  /** One scatter point: the label, the x value and the y value in seconds
      (`None` for a time pandas reads as missing). */
  datatype ChartPoint = ChartPoint(player: Option<string>, contribution: int, seconds: Option<nat>)

  function PlayerOf(row: Row): Option<string> {
    if "Player Name" in row && row["Player Name"].Text? then Some(row["Player Name"].text) else None
  }

  /** Line 27 on one cell: a missing or empty time is missing (`NaT`), an
      `m:ss` text is its seconds, anything else makes the conversion raise. */
  function SecondsOf(cell: Option<Cell>): (r: Result<Option<nat>, Error>)
    ensures cell.None? || cell == Some(Text("")) ==> r == Success(None)
    ensures cell.Some? && cell != Some(Text("")) ==>
      (r.Success? <==> cell.value.Text? && ParseClock(cell.value.text).Some?)
    ensures r.Success? && r.value.Some? ==>
      cell.Some? && cell.value.Text? && ParseClock(cell.value.text) == r.value
    ensures r.Failure? ==> r.error.UnparseableTime?
  {
    match cell
    case None => Success(None)
    case Some(Num(n)) => Failure(UnparseableTime(IntToString(n)))
    case Some(Text(t)) =>
      if t == "" then Success(None)
      else
        match ParseClock(t)
        case Some(s) => Success(Some(s))
        case None => Failure(UnparseableTime(t))
  }

  /** A time rendered by the chart's axis formatter reads back as the same
      number of seconds. */
  lemma SecondsOfRendered(secs: nat)
    ensures SecondsOf(Some(Text(RenderClock(secs)))) == Success(Some(secs))
  {
    ClockRoundTrip(secs);
  }

  /** Lines 27 and 58: one point per row, or the first conversion failure. */
  function ToPoints(rows: seq<Row>): (r: Result<seq<ChartPoint>, Error>)
    ensures r.Failure? <==> exists i :: 0 <= i < |rows| && SecondsOf(Get(rows[i], "Time")).Failure?
    ensures r.Failure? ==> r.error.UnparseableTime?
    ensures r.Success? ==> |r.value| == |rows|
    ensures r.Success? ==> forall i :: 0 <= i < |rows| ==>
      && SecondsOf(Get(rows[i], "Time")).Success?
      && r.value[i] == ChartPoint(PlayerOf(rows[i]), Value(rows[i], "Contribution"),
                                  SecondsOf(Get(rows[i], "Time")).value)
    decreases |rows|
  {
    if |rows| == 0 then Success([])
    else
      match SecondsOf(Get(rows[0], "Time"))
      case Failure(e) => Failure(e)
      case Success(secs) =>
        assert forall i :: 1 <= i < |rows| ==> rows[1..][i - 1] == rows[i];
        match ToPoints(rows[1..])
        case Failure(e) => Failure(e)
        case Success(rest) =>
          Success([ChartPoint(PlayerOf(rows[0]), Value(rows[0], "Contribution"), secs)] + rest)
  }

  /** The players of `ps`, each once, in order of first appearance; points
      without a player name belong to no group. */
  function Players(ps: seq<ChartPoint>): (r: seq<string>)
    ensures forall i, j :: 0 <= i < j < |r| ==> r[i] != r[j]
    ensures forall n :: n in r <==> exists i :: 0 <= i < |ps| && ps[i].player == Some(n)
    decreases |ps|
  {
    if |ps| == 0 then []
    else
      var init := Players(ps[..|ps| - 1]);
      assert forall i :: 0 <= i < |ps| - 1 ==> ps[..|ps| - 1][i] == ps[i];
      match ps[|ps| - 1].player
      case Some(n) => if n in init then init else init + [n]
      case None => init
  }

  /** The sum of the contributions of `name`'s points. */
  function ContributionSum(ps: seq<ChartPoint>, name: string): int
    decreases |ps|
  {
    if |ps| == 0 then 0
    else
      ContributionSum(ps[..|ps| - 1], name)
        + (if ps[|ps| - 1].player == Some(name) then ps[|ps| - 1].contribution else 0)
  }

  /** The sum of the seconds of `name`'s points, skipping missing times as
      pandas' `sum` does. */
  function SecondsSum(ps: seq<ChartPoint>, name: string): nat
    decreases |ps|
  {
    if |ps| == 0 then 0
    else
      SecondsSum(ps[..|ps| - 1], name)
        + (if ps[|ps| - 1].player == Some(name) then ps[|ps| - 1].seconds.GetOr(0) else 0)
  }

  /** Lines 34-47 as a reference: one point per player with the sums over
      that player's points. */
  function Grouped(ps: seq<ChartPoint>): seq<ChartPoint> {
    var names := Players(ps);
    seq(|names|, k requires 0 <= k < |names| =>
      ChartPoint(Some(names[k]), ContributionSum(ps, names[k]), Some(SecondsSum(ps, names[k]))))
  }

  /** A player without points has nothing to sum. */
  lemma {:induction false} SumsOfAbsentPlayer(ps: seq<ChartPoint>, name: string)
    requires forall i :: 0 <= i < |ps| ==> ps[i].player != Some(name)
    ensures ContributionSum(ps, name) == 0 && SecondsSum(ps, name) == 0
    decreases |ps|
  {
    if |ps| > 0 {
      SumsOfAbsentPlayer(ps[..|ps| - 1], name);
    }
  }

  /** A group with one more point of its player. */
  function AddPoint(g: ChartPoint, p: ChartPoint): ChartPoint {
    ChartPoint(g.player, g.contribution + p.contribution, Some(g.seconds.GetOr(0) + p.seconds.GetOr(0)))
  }

  /** How the reference grouping changes when one point is appended. */
  lemma GroupedAppend(s: seq<ChartPoint>, p: ChartPoint)
    ensures p.player.None? ==> Grouped(s + [p]) == Grouped(s)
    ensures p.player.Some? && p.player.value !in Players(s) ==>
      Grouped(s + [p]) == Grouped(s) + [ChartPoint(p.player, p.contribution, Some(p.seconds.GetOr(0)))]
    ensures forall k :: 0 <= k < |Players(s)| && p.player == Some(Players(s)[k]) ==>
      Grouped(s + [p]) == Grouped(s)[k := AddPoint(Grouped(s)[k], p)]
  {
    var t := s + [p];
    assert t[..|t| - 1] == s;
    if p.player.None? {
      assert Players(t) == Players(s);
    } else if p.player.value !in Players(s) {
      GroupedAppendNew(s, p);
    } else {
      GroupedAppendExisting(s, p);
    }
  }

  /** The players after one more point: a new name goes last. */
  lemma PlayersAppend(s: seq<ChartPoint>, p: ChartPoint)
    ensures Players(s + [p]) ==
      if p.player.Some? && p.player.value !in Players(s) then Players(s) + [p.player.value] else Players(s)
  {
    var t := s + [p];
    assert t[..|t| - 1] == s;
  }

  /** The sums of `name` after one more point. */
  lemma SumsAppend(s: seq<ChartPoint>, p: ChartPoint, name: string)
    ensures ContributionSum(s + [p], name)
      == ContributionSum(s, name) + (if p.player == Some(name) then p.contribution else 0)
    ensures SecondsSum(s + [p], name)
      == SecondsSum(s, name) + (if p.player == Some(name) then p.seconds.GetOr(0) else 0)
  {
    var t := s + [p];
    assert t[..|t| - 1] == s;
  }

  lemma GroupedAppendNew(s: seq<ChartPoint>, p: ChartPoint)
    requires p.player.Some? && p.player.value !in Players(s)
    ensures Grouped(s + [p]) == Grouped(s) + [ChartPoint(p.player, p.contribution, Some(p.seconds.GetOr(0)))]
  {
    var t := s + [p];
    var n := p.player.value;
    var names := Players(s);
    PlayersAppend(s, p);
    assert forall i :: 0 <= i < |s| ==> s[i].player != Some(n);
    SumsOfAbsentPlayer(s, n);
    var h := Grouped(t);
    var e := Grouped(s) + [ChartPoint(p.player, p.contribution, Some(p.seconds.GetOr(0)))];
    assert |h| == |e|;
    forall k | 0 <= k < |h|
      ensures h[k] == e[k]
    {
      var m := Players(t)[k];
      assert h[k] == ChartPoint(Some(m), ContributionSum(t, m), Some(SecondsSum(t, m)));
      SumsAppend(s, p, m);
      if k < |names| {
        assert m == names[k] != n;
      }
    }
  }

  lemma GroupedAppendExisting(s: seq<ChartPoint>, p: ChartPoint)
    requires p.player.Some? && p.player.value in Players(s)
    ensures forall k :: 0 <= k < |Players(s)| && p.player == Some(Players(s)[k]) ==>
      Grouped(s + [p]) == Grouped(s)[k := AddPoint(Grouped(s)[k], p)]
  {
    var t := s + [p];
    var names := Players(s);
    PlayersAppend(s, p);
    var h := Grouped(t);
    forall k | 0 <= k < |names| && p.player == Some(names[k])
      ensures h == Grouped(s)[k := AddPoint(Grouped(s)[k], p)]
    {
      var e := Grouped(s)[k := AddPoint(Grouped(s)[k], p)];
      assert |h| == |e|;
      forall l | 0 <= l < |h|
        ensures h[l] == e[l]
      {
        var m := names[l];
        assert h[l] == ChartPoint(Some(m), ContributionSum(t, m), Some(SecondsSum(t, m)));
        SumsAppend(s, p, m);
        if l != k {
          assert m != names[k];
        }
      }
    }
  }

  /** Lines 34-47: `groupby('Player Name')` and sum, one pass over the
      points keeping one running group per player. */
  method Aggregate(ps: seq<ChartPoint>) returns (groups: seq<ChartPoint>)
    ensures groups == Grouped(ps)
  {
    groups := [];
    var i := 0;
    while i < |ps|
      invariant 0 <= i <= |ps|
      invariant groups == Grouped(ps[..i])
    {
      var p := ps[i];
      assert ps[..i + 1] == ps[..i] + [p];
      GroupedAppend(ps[..i], p);
      if p.player.Some? {
        var found := FindFirst(groups, (g: ChartPoint) => g.player == p.player, 0);
        if found.Some? {
          var k := found.value;
          groups := groups[k := AddPoint(groups[k], p)];
        } else {
          assert p.player.value !in Players(ps[..i]);
          groups := groups + [ChartPoint(p.player, p.contribution, Some(p.seconds.GetOr(0)))];
        }
      }
      i := i + 1;
    }
    assert ps[..|ps|] == ps;
  }

  /** Each player appears once in the aggregated points, with the sums over
      all of that player's points. */
  lemma GroupedIsPerPlayer(ps: seq<ChartPoint>)
    ensures var g := Grouped(ps);
      && (forall i, j :: 0 <= i < j < |g| ==> g[i].player != g[j].player)
      && (forall k :: 0 <= k < |g| ==>
            (g[k].player.Some?
             && g[k].contribution == ContributionSum(ps, g[k].player.value)
             && g[k].seconds == Some(SecondsSum(ps, g[k].player.value))))
      && (forall i :: 0 <= i < |ps| && ps[i].player.Some? ==>
            exists k :: 0 <= k < |g| && g[k].player == ps[i].player)
  {
    var g := Grouped(ps);
    var names := Players(ps);
    forall i | 0 <= i < |ps| && ps[i].player.Some?
      ensures exists k :: 0 <= k < |g| && g[k].player == ps[i].player
    {
      var n := ps[i].player.value;
      assert n in names;
      var k :| 0 <= k < |names| && names[k] == n;
      assert g[k].player == Some(n);
    }
  }

  /** Line 50: `df[df['Time'] != 0]`; a missing time is not 0 and stays. */
  function DropIdle(ps: seq<ChartPoint>): (r: seq<ChartPoint>)
    ensures forall i :: 0 <= i < |r| ==> r[i].seconds != Some(0) && r[i] in ps
    ensures forall i :: 0 <= i < |ps| && ps[i].seconds != Some(0) ==> ps[i] in r
  {
    Filter(ps, Played)
  }

  /** A point whose time is not exactly zero. */
  predicate Played(p: ChartPoint) {
    p.seconds != Some(0)
  }

  /** Dropping points keeps the remaining players pairwise distinct. */
  lemma DropIdleKeepsPlayersDistinct(ps: seq<ChartPoint>)
    requires forall i, j :: 0 <= i < j < |ps| ==> ps[i].player != ps[j].player
    ensures var r := DropIdle(ps);
      forall i, j :: 0 <= i < j < |r| ==> r[i].player != r[j].player
  {
    FilterAtKeptIndices(ps, Played);
  }

  /** The columns the aggregation of lines 34-47 reads. */
  const AggregatedColumns: seq<string> := ["Player Name"] + Counters + ["Contribution", "Time"]

  /** The errors the chart function catches and reports itself (lines
      21-30): a missing `Time` column and a time that does not convert. */
  predicate Caught(e: Error) {
    e == MissingColumn("Time") || e.UnparseableTime?
  }

  /** Once the times have converted, a missing column raises out of the
      chart function: the grouping of lines 34-47, `Contribution` at line
      54, or `Player Name` at line 70 when there is a point to label. */
  predicate ChartFatal(t: Table, aggregate: bool) {
    && "Time" in t.columns && ToPoints(t.rows).Success?
    && ((aggregate && FirstMissing(t.columns, AggregatedColumns).Some?)
        || "Contribution" !in t.columns
        || (!aggregate && |DropIdle(ToPoints(t.rows).value)| > 0 && "Player Name" !in t.columns))
  }

  /** Lines 20-54 and 69-72: the points of the scatter chart for the
      filtered rows. */
  method ChartData(t: Table, aggregate: bool) returns (r: Result<seq<ChartPoint>, Error>)
    ensures r.Failure? <==> "Time" !in t.columns || ToPoints(t.rows).Failure? || ChartFatal(t, aggregate)
    ensures r.Failure? ==> (Caught(r.error) <==> !ChartFatal(t, aggregate))
    ensures "Time" !in t.columns ==> r == Failure(MissingColumn("Time"))
    ensures "Time" in t.columns && ToPoints(t.rows).Failure? ==> r.Failure? && r.error.UnparseableTime?
    ensures r.Success? ==> ToPoints(t.rows).Success?
    ensures r.Success? ==> forall i :: 0 <= i < |r.value| ==> r.value[i].seconds != Some(0)
    ensures r.Success? && !aggregate ==> r.value == DropIdle(ToPoints(t.rows).value)
    ensures r.Success? && aggregate ==> r.value == DropIdle(Grouped(ToPoints(t.rows).value))
    ensures r.Success? && aggregate ==>
      forall i, j :: 0 <= i < j < |r.value| ==> r.value[i].player != r.value[j].player
  {
    if "Time" !in t.columns {
      return Failure(MissingColumn("Time"));
    }
    var points := ToPoints(t.rows);
    if points.Failure? {
      return Failure(points.error);
    }
    var ps := points.value;
    if aggregate {
      var missing := FirstMissing(t.columns, AggregatedColumns);
      if missing.Some? {
        return Failure(MissingColumn(missing.value));
      }
      ps := Aggregate(ps);
      GroupedIsPerPlayer(points.value);
      DropIdleKeepsPlayersDistinct(ps);
    }
    var shown := DropIdle(ps);
    if "Contribution" !in t.columns {
      return Failure(MissingColumn("Contribution"));
    }
    if !aggregate && |shown| > 0 && "Player Name" !in t.columns {
      return Failure(MissingColumn("Player Name"));
    }
    return Success(shown);
  }

  /** Line 141 on one cell: `m:ss` for a time that parses, `"00:00"` for a
      missing or unparseable one. */
  function DisplayTime(cell: Option<Cell>): (r: string)
    ensures r == "00:00" <==> !(cell.Some? && cell.value.Text? && ParseClock(cell.value.text).Some?)
    ensures cell.Some? && cell.value.Text? && ParseClock(cell.value.text).Some? ==>
      ParseClock(r) == ParseClock(cell.value.text)
    ensures cell.Some? && cell.value.Text? && ParseClock(cell.value.text).Some? ==>
      r == RenderClock(ParseClock(cell.value.text).value)
  {
    match cell
    case Some(Text(t)) =>
      (match ParseClock(t)
       case Some(s) => RenderIsNotPlaceholder(s); ClockRoundTrip(s); RenderClock(s)
       case None => "00:00")
    case _ => "00:00"
  }

  /** Lines 144-145 as written: the insertion index is taken before `Eff` is
      popped. */
  function ReorderAsWritten(columns: seq<string>): (r: Result<seq<string>, Error>)
    ensures r.Failure? <==> "+/-" !in columns || "Eff" !in columns
    ensures r.Failure? ==> r.error == MissingColumn(if "+/-" !in columns then "+/-" else "Eff")
    ensures r.Success? ==> multiset(r.value) == multiset(columns)
    ensures r.Success? ==>
      var i := IndexOf(columns, "+/-").value;
      var j := IndexOf(columns, "Eff").value;
      i < j ==> |r.value| == |columns| && r.value[i] == "+/-" && r.value[i + 1] == "Eff"
                && RemoveAt(r.value, i + 1) == RemoveAt(columns, j)
    ensures r.Success? ==>
      var i := IndexOf(columns, "+/-").value;
      var j := IndexOf(columns, "Eff").value;
      j < i ==> |r.value| == |columns| && r.value[i - 1] == "+/-"
                && (i + 1 < |columns| ==> r.value[i] == columns[i + 1] && r.value[i + 1] == "Eff")
                && (i + 1 == |columns| ==> r.value[i] == "Eff")
                && RemoveAt(r.value, if i + 1 < |columns| then i + 1 else i) == RemoveAt(columns, j)
  {
    match IndexOf(columns, "+/-")
    case None => Failure(MissingColumn("+/-"))
    case Some(i) =>
      match IndexOf(columns, "Eff")
      case None => Failure(MissingColumn("Eff"))
      case Some(j) =>
        MoveKeepsElements(columns, j, i + 1);
        Success(InsertAt(RemoveAt(columns, j), i + 1, "Eff"))
  }

  /** With `Eff` before `+/-` the code as written does not put `Eff` right
      after `+/-`: the column that followed `+/-` ends up between them. */
  lemma ReorderAsWrittenMisplacesEff()
    ensures ReorderAsWritten(["Eff", "+/-", "X"]) == Success(["+/-", "X", "Eff"])
  {
    SampleIndices();
    SampleMove();
  }

  /** Popping `Eff` from the front and inserting it at index 2. */
  lemma SampleMove()
    ensures InsertAt(RemoveAt(["Eff", "+/-", "X"], 0), 2, "Eff") == ["+/-", "X", "Eff"]
  {
    var rest := RemoveAt(["Eff", "+/-", "X"], 0);
    assert rest == ["+/-", "X"];
    assert InsertAt(rest, 2, "Eff") == rest[..2] + ["Eff"] + rest[2..];
  }

  /** Where `list.index` finds the two columns in the counterexample. */
  lemma SampleIndices()
    ensures IndexOf(["Eff", "+/-", "X"], "+/-") == Some(1)
    ensures IndexOf(["Eff", "+/-", "X"], "Eff") == Some(0)
  {
    var cols := ["Eff", "+/-", "X"];
    assert "Eff"[0] != "+/-"[0] && "X"[0] != "+/-"[0];
    assert cols[1] == "+/-" && cols[0] == "Eff";
  }

  /** Lines 144-145 as intended: `Eff` is taken out, then put immediately
      after `+/-`, wherever it was. */
  function ReorderColumns(columns: seq<string>): (r: Result<seq<string>, Error>)
    ensures r.Failure? <==> "+/-" !in columns || "Eff" !in columns
    ensures r.Failure? ==> r.error == MissingColumn(if "+/-" !in columns then "+/-" else "Eff")
    ensures r.Success? ==> multiset(r.value) == multiset(columns)
    ensures r.Success? ==> forall c :: c in r.value <==> c in columns
    ensures r.Success? ==>
      var j := IndexOf(columns, "Eff").value;
      exists k :: 0 <= k < |r.value| - 1 && r.value[k] == "+/-" && r.value[k + 1] == "Eff"
        && RemoveAt(r.value, k + 1) == RemoveAt(columns, j)
  {
    match IndexOf(columns, "+/-")
    case None => Failure(MissingColumn("+/-"))
    case Some(i0) =>
      match IndexOf(columns, "Eff")
      case None => Failure(MissingColumn("Eff"))
      case Some(j) =>
        var rest := RemoveAt(columns, j);
        assert columns[i0] in rest by {
          if i0 < j { assert rest[i0] == columns[i0]; } else { assert rest[i0 - 1] == columns[i0]; }
        }
        var i := IndexOf(rest, "+/-").value;
        MoveKeepsElements(columns, j, i + 1);
        var r := InsertAt(rest, i + 1, "Eff");
        assert r[i] == "+/-";
        SameElements(r, columns);
        Success(r)
  }

  /** Sequences with the same multiset have the same elements. */
  lemma SameElements(a: seq<string>, b: seq<string>)
    requires multiset(a) == multiset(b)
    ensures forall c :: c in a <==> c in b
  {
    forall c
      ensures c in a <==> c in b
    {
      assert c in a <==> c in multiset(a);
      assert c in b <==> c in multiset(b);
    }
  }

  /** When `Eff` already follows `+/-` the code as written and the intended
      reorder agree. */
  lemma ReorderAgreesWhenEffFollows(columns: seq<string>)
    requires "+/-" in columns && "Eff" in columns
    requires IndexOf(columns, "+/-").value < IndexOf(columns, "Eff").value
    ensures ReorderAsWritten(columns) == ReorderColumns(columns)
  {
    var i := IndexOf(columns, "+/-").value;
    var j := IndexOf(columns, "Eff").value;
    var rest := RemoveAt(columns, j);
    assert rest[..i] == columns[..i];
    assert rest[i] == "+/-";
    assert IndexOf(rest, "+/-") == Some(i);
  }

  /** The columns the table never shows. */
  const HiddenColumns: seq<string> := ["Date", "Match", "No."]

  /** Line 141 over all rows. */
  function ShowTimes(rows: seq<Row>): (r: seq<Row>)
    ensures |r| == |rows|
    ensures forall i :: 0 <= i < |rows| ==>
      && Get(r[i], "Time") == Some(Text(DisplayTime(Get(rows[i], "Time"))))
      && (forall c :: c != "Time" ==> Get(r[i], c) == Get(rows[i], c))
  {
    seq(|rows|, i requires 0 <= i < |rows| => rows[i]["Time" := Text(DisplayTime(Get(rows[i], "Time")))])
  }

  /** The rows of the table view, in terms of the rows before the drop. */
  lemma ShownRows(t: Table, shown: Table)
    requires DropColumns(t, HiddenColumns) == Success(shown)
    ensures var r := ShowTimes(shown.rows);
      && |r| == |t.rows|
      && forall i :: 0 <= i < |t.rows| ==>
        && Get(r[i], "Time") == Some(Text(DisplayTime(Get(t.rows[i], "Time"))))
        && (forall c :: c in HiddenColumns ==> c !in r[i])
        && (forall c :: c != "Time" && c !in HiddenColumns ==> Get(r[i], c) == Get(t.rows[i], c))
  {
    var r := ShowTimes(shown.rows);
    assert "Time" !in HiddenColumns;
    forall i | 0 <= i < |t.rows|
      ensures Get(r[i], "Time") == Some(Text(DisplayTime(Get(t.rows[i], "Time"))))
      ensures forall c :: c in HiddenColumns ==> c !in r[i]
      ensures forall c :: c != "Time" && c !in HiddenColumns ==> Get(r[i], c) == Get(t.rows[i], c)
    {
      assert Get(shown.rows[i], "Time") == Get(t.rows[i], "Time");
      forall c | c != "Time"
        ensures Get(r[i], c) == Get(shown.rows[i], c)
        ensures c !in HiddenColumns ==> Get(shown.rows[i], c) == Get(t.rows[i], c)
        ensures c in HiddenColumns ==> c !in shown.rows[i]
      {
      }
    }
  }

  /** The columns the table reads: the hidden ones it drops, `Time`, and
      the two it reorders. */
  const TableColumns: seq<string> := HiddenColumns + ["Time", "+/-", "Eff"]

  /** Lines 140-141: drop the hidden columns and show each time as `m:ss`
      or the `"00:00"` placeholder, keeping the column order. */
  function ShownTable(t: Table): (r: Result<Table, Error>)
    ensures r.Failure? <==> (exists c :: c in HiddenColumns && c !in t.columns) || "Time" !in t.columns
    ensures r.Failure? ==> r.error.MissingColumn? && r.error.name in TableColumns && r.error.name !in t.columns
    ensures r.Success? ==> r.value.columns == Filter(t.columns, Outside(HiddenColumns))
    ensures r.Success? ==> |r.value.rows| == |t.rows|
    ensures r.Success? ==> forall i :: 0 <= i < |t.rows| ==>
      && Get(r.value.rows[i], "Time") == Some(Text(DisplayTime(Get(t.rows[i], "Time"))))
      && (forall c :: c in HiddenColumns ==> c !in r.value.rows[i])
      && (forall c :: c != "Time" && c !in HiddenColumns ==> Get(r.value.rows[i], c) == Get(t.rows[i], c))
  {
    match DropColumns(t, HiddenColumns)
    case Failure(e) => Failure(e)
    case Success(shown) =>
      if "Time" !in shown.columns then Failure(MissingColumn("Time"))
      else
        ShownRows(t, shown);
        Success(Table(shown.columns, ShowTimes(shown.rows)))
  }

  /** Lines 140-146 as written: the shown table with `Eff` moved by the
      reorder of line 145, which puts it right after `+/-` only when it
      came after `+/-` already. */
  function TableView(t: Table): (r: Result<Table, Error>)
    ensures r.Failure? <==> exists c :: c in TableColumns && c !in t.columns
    ensures r.Failure? ==> r.error.MissingColumn? && r.error.name in TableColumns && r.error.name !in t.columns
    ensures r.Success? ==> ShownTable(t).Success? && r.value.rows == ShownTable(t).value.rows
    ensures r.Success? ==> forall c :: c in r.value.columns <==> c in t.columns && c !in HiddenColumns
    ensures r.Success? ==>
      var visible := Filter(t.columns, Outside(HiddenColumns));
      && multiset(r.value.columns) == multiset(visible)
      && "+/-" in visible && "Eff" in visible
      && (IndexOf(visible, "+/-").value < IndexOf(visible, "Eff").value ==>
            exists k :: 0 <= k < |r.value.columns| - 1 && r.value.columns[k] == "+/-" && r.value.columns[k + 1] == "Eff")
    ensures r.Success? ==> ReorderAsWritten(Filter(t.columns, Outside(HiddenColumns))) == Success(r.value.columns)
  {
    match ShownTable(t)
    case Failure(e) => Failure(e)
    case Success(shown) =>
      match ReorderAsWritten(shown.columns)
      case Failure(e) => Failure(e)
      case Success(columns) =>
        SameElements(columns, shown.columns);
        Success(Table(columns, shown.rows))
  }

  /** Lines 140-146 as intended: the shown table with `Eff` immediately
      after `+/-` wherever it started. */
  function IntendedTableView(t: Table): (r: Result<Table, Error>)
    ensures r.Failure? <==> exists c :: c in TableColumns && c !in t.columns
    ensures r.Success? ==> ShownTable(t).Success? && r.value.rows == ShownTable(t).value.rows
    ensures r.Success? ==> forall c :: c in r.value.columns <==> c in t.columns && c !in HiddenColumns
    ensures r.Success? ==> multiset(r.value.columns) == multiset(Filter(t.columns, Outside(HiddenColumns)))
    ensures r.Success? ==>
      exists k :: 0 <= k < |r.value.columns| - 1 && r.value.columns[k] == "+/-" && r.value.columns[k + 1] == "Eff"
    ensures r.Success? ==> ReorderColumns(Filter(t.columns, Outside(HiddenColumns))) == Success(r.value.columns)
  {
    match ShownTable(t)
    case Failure(e) => Failure(e)
    case Success(shown) =>
      match ReorderColumns(shown.columns)
      case Failure(e) => Failure(e)
      case Success(columns) => Success(Table(columns, shown.rows))
  }

  /** The table as written and as intended agree whenever `Eff` comes after
      `+/-` among the shown columns, and fail on the same tables. */
  lemma TableViewsAgree(t: Table)
    ensures TableView(t).Failure? <==> IntendedTableView(t).Failure?
    ensures var visible := Filter(t.columns, Outside(HiddenColumns));
      "+/-" in visible && "Eff" in visible && IndexOf(visible, "+/-").value < IndexOf(visible, "Eff").value ==>
        TableView(t) == IntendedTableView(t)
  {
    if ShownTable(t).Success? {
      var cols := ShownTable(t).value.columns;
      if "+/-" in cols && "Eff" in cols && IndexOf(cols, "+/-").value < IndexOf(cols, "Eff").value {
        ReorderAgreesWhenEffFollows(cols);
      }
    }
  }

  /** What the page shows below the sidebar: the message for an empty
      dataset (line 119), or the chart and the table. A chart error the
      chart function catches is shown in place of the chart. */
  datatype Page = NoData | Views(chart: Result<seq<ChartPoint>, Error>, table: Table)

  /** `df.empty`: no rows or no columns. */
  predicate IsEmptyFrame(t: Table) {
    |t.rows| == 0 || |t.columns| == 0
  }

  /** The columns lines 122-123 read to build the sidebar options. */
  const OptionColumns: seq<string> := ["Match", "Player Name"]

  /** Lines 118-146: the page for one selection. A `Failure` is an
      exception that ends the script: a column the options need, a chart
      error the chart function does not catch, or a table error. */
  method Render(store: Table, sel: Selection) returns (r: Result<Page, Error>)
    ensures IsEmptyFrame(store) ==> r == Success(NoData)
    ensures !IsEmptyFrame(store) && FirstMissing(store.columns, OptionColumns).Some? ==>
      r == Failure(MissingColumn(FirstMissing(store.columns, OptionColumns).value))
    ensures !IsEmptyFrame(store) && FirstMissing(store.columns, OptionColumns).None? ==>
      var shown := FilterRows(store, sel);
      && (r.Failure? <==> ChartFatal(shown, ShouldAggregate(sel)) || TableView(shown).Failure?)
      && (r.Success? ==> r.value.Views? && TableView(shown) == Success(r.value.table))
      && (r.Success? ==> |r.value.table.rows| == |shown.rows|)
      && (r.Success? && r.value.chart.Failure? ==> Caught(r.value.chart.error))
      && (r.Success? ==> (r.value.chart.Failure? <==> ToPoints(shown.rows).Failure?))
      && (r.Success? && r.value.chart.Success? && !ShouldAggregate(sel) ==>
            r.value.chart.value == DropIdle(ToPoints(shown.rows).value))
      && (r.Success? && r.value.chart.Success? && ShouldAggregate(sel) ==>
            r.value.chart.value == DropIdle(Grouped(ToPoints(shown.rows).value)))
      && (r.Success? && r.value.chart.Success? ==>
            forall i :: 0 <= i < |r.value.chart.value| ==> r.value.chart.value[i].seconds != Some(0))
      && (r.Success? && r.value.chart.Success? && ShouldAggregate(sel) ==>
            forall i, j :: 0 <= i < j < |r.value.chart.value| ==>
              r.value.chart.value[i].player != r.value.chart.value[j].player)
  {
    if IsEmptyFrame(store) {
      return Success(NoData);
    }
    var missing := FirstMissing(store.columns, OptionColumns);
    if missing.Some? {
      return Failure(MissingColumn(missing.value));
    }
    var shown := FilterRows(store, sel);
    var chart := ChartData(shown, ShouldAggregate(sel));
    if chart.Failure? && !Caught(chart.error) {
      return Failure(chart.error);
    }
    var table := TableView(shown);
    if table.Failure? {
      return Failure(table.error);
    }
    return Success(Views(chart, table.value));
  }
}
